=== FILE: README.md ===
# ember-graphql-adapter: the query compiler, in Dafny

This project models the query compiler of `ember-graphql-adapter`, together with the small pure helpers around it.

The compiler turns an Ember Data model description and a set of options into the text of one GraphQL operation, in three steps:
- it builds an `Operation` and a root `Field`, whose arguments come from the options' `rootFieldQuery`;
- the parser appends `id`, then one leaf per attribute, then one sub-field per relationship, each holding `id` and the related model's attributes;
- the generator renders the tree by plain string concatenation.

The helpers around it are:
- the adapter's response-header parser and URL builder;
- the option records its `query`, `findAll`, `findRecord`, `createRecord` and `deleteRecord` hooks hand to the compiler;
- its `handleResponse` hook;
- the serializer's extraction hooks.

Modules, one per file:

- `Wrappers`: `Option` and `Result`.
- `Text`: string search, split and join, digit strings, character counts.
- `Assoc`: ordered key/value pairs read as a JavaScript object, where a later assignment wins.
- `Types`: the values, arguments, fields and operations, plus the sequence operations of the argument and selection sets.
- `Generator`: the renderer, token for token.
- `GeneratorLaws`: what the rendering looks like, and the balance of its brackets.
- `Reader`: a decoder of the generator's output. It is the generator's partner: for well-formed trees, decoding the generated text gives the tree back, so rendering loses nothing.
- `Parser`: the selection planner over a model description and a registry of related models.
- `Compiler`: option defaulting and the parse-then-generate composition.
- `Adapter`: header parsing, URL building, the hooks' option records and `handleResponse`.
- `Serializer`: `extractId`, `_extractType`, `extractAttributes` and `extractRelationships`.

JavaScript behaviour is written out explicitly:
- An absent operation type or name is concatenated as `undefined`, and the default `null` endpoint as `null`.
- An alias or root field name is used only when truthy, that is present and non-empty.
- A supplied argument or selection set is always truthy, so the constructor defaults apply only when the set is absent.
- A query object is a sequence of key/value pairs in enumeration order.
- The related model is looked up by relationship name, as `store.modelFor(rel)` does (addon/parser.js:17), so the registry is keyed by relationship name. A relationship whose name differs from its target type (`parent` or `children` pointing at `node`) finds no model in a store keyed by type.
- A missing relationship model, which makes the source throw, is a `Failure` naming the key.

The generator's code puts a space before every field, after every field's name or, when it has arguments, after its argument list (`post(id: "1") `), and after every `}`. The generator's own test expects exactly that shape (tests/unit/generator-test.js:30). The compiler and adapter tests (tests/unit/compiler-test.js:28, tests/integration/adapter-test.js:56) expect single-spaced text without the trailing space, which this code does not produce. The model follows the code, so the worked example `Compiler.PostExample` is `query post { post(id: "1") { id  name } } `.

## Model

| member | source | states |
|---|---|---|
| Text.IndexOf | addon/adapter.js:233 | the result is the first position at which the pattern occurs, and there is none exactly when the pattern occurs nowhere |
| Text.SplitJoin | addon/adapter.js:228 | `split` after `join` (addon/generator.js:75): splitting text made by joining parts with a separator returns exactly those parts, when no part contains the separator and the separator cannot overlap itself |
| Text.JoinSplit | addon/adapter.js:228 | `join` after `split`: joining the pieces that `split` cuts a text into, with the same separator, gives back the text, so splitting loses nothing |
| Text.IntToString | addon/generator.js:71 | an integer's decimal text: an optional minus sign, present exactly for negative numbers, followed by the digits of its magnitude with no leading zero (`0` for zero) |
| Text.NatToStringValue | addon/generator.js:71 | the digits written for a natural number read back as that number |
| Text.NatToStringLength | addon/generator.js:71 | a number below 10^k is written with at most k digits |
| Text.NatToStringLead | addon/generator.js:71 | a natural number's numeral is `0` for zero and otherwise starts with a non-zero digit |
| Assoc.ToMap | addon/adapter.js:237 | the object's keys are exactly the keys assigned, and each holds the value of the last assignment to it |
| Assoc.ToMapSnoc | addon/adapter.js:237 | assigning one more pair changes the object built so far at that pair's key only, to that pair's value |
| Types.Push | addon/types/selection-set.js:6-8 | push appends the element at the end and leaves the earlier items unchanged |
| Types.Pop | addon/types/selection-set.js:10-12 | pop of an empty set returns nothing and leaves the set empty; otherwise it returns the last item and leaves the items before it |
| Types.PushThenPop | addon/types/selection-set.js:6-12 | pushing an element and then popping returns that element and restores the original items |
| Types.ToArray | addon/types/selection-set.js:14-16 | the array holds the set's fields in the same order; a selection set holds only fields, so `new Array(...items)` never meets the single-number form that builds empty slots |
| Types.ToArrayPushPop | addon/types/selection-set.js:6-16 | the array follows the set: after `push(x)` it is the earlier array followed by `x`, and after `pop()` of a non-empty set it is the earlier array without its last field |
| Types.NewSet | addon/types/argument-set.js:3-5 | a set built from elements holds exactly those elements in the given order |
| Types.FromQuery | addon/types/argument-set.js:8-16 | one argument per query key in key order (a query object holds each key once), named by the key, carrying its value unchanged (null included); an empty query gives an empty set |
| Types.NewField | addon/types/field.js:3-10 | name and alias are stored unchanged; an absent argument or selection set becomes empty and a supplied one is kept |
| Types.Leaf | addon/types/field.js:3-10 | `new Field(name)`: the field has that name, no alias, and empty argument and selection sets |
| Types.NewOperation | addon/types/operation.js:3-10 | type and name are stored unchanged; an absent argument set or root set becomes empty and a supplied one is kept |
| Generator.JsText | addon/generator.js:23 | a present operation type or name is used as is; an absent one is concatenated as `undefined` |
| Generator.ValueText | addon/generator.js:68-72 | a string value is wrapped in double quotes without escaping; integers, booleans and null use their JavaScript text (for the integers JavaScript holds exactly, see Generator.SafeIntPlain) |
| Generator.SafeIntPlain | addon/generator.js:71 | an integer argument lies within JavaScript's safe integers, so its magnitude has at most 16 digits, far below the 21 at which JavaScript switches to exponent notation; its text is therefore the plain decimal one: a minus sign for negative numbers, then the digits |
| Generator.ArgumentTexts | addon/generator.js:66-74 | one `name: value` text per argument, in the set's order |
| Generator.GenerateFields | addon/generator.js:56-58 | the text of a non-empty child list starts with the space that opens its first field |
| Generator.UnaliasedPrefix | addon/generator.js:34-38 | a field without a truthy alias starts with a space and its bare name |
| Generator.Generate | addon/generator.js:18-25 | the output starts with the operation type, a space and the operation name, because the operation is rendered as a field |
| GeneratorLaws.LeafText | addon/generator.js:31-50 | `generateField` on a leaf: a field with no alias, arguments or selection is exactly a space, its name and a space |
| GeneratorLaws.AliasText | addon/generator.js:34-38 | a truthy alias is written as `alias: name`; an absent or empty alias renders the same as no alias |
| GeneratorLaws.FieldsConcat | addon/generator.js:56-58 | the text of two child lists in sequence is the text of the first followed by the text of the second, so children are never reordered |
| GeneratorLaws.SelectionPush | addon/generator.js:53-61 | `generateSelectionSet`: a selection whose last child was pushed renders as `{`, the earlier children, that child, and `} ` |
| GeneratorLaws.ArgumentsPartCount | addon/generator.js:40-42 | `generateArgumentSet`, as `generateField` calls it: an argument part holds exactly one `(` and one `)` when the set is non-empty and none when empty, if the values hold no brackets |
| GeneratorLaws.FieldCount | addon/generator.js:31-51 | `generateField`: a field's text holds one `{` and one `}` per field with a non-empty selection in its subtree, and one `(` and one `)` per field with arguments, if its names, aliases and strings hold no brackets |
| GeneratorLaws.SelectionCount | addon/generator.js:53-61 | a selection adds one brace pair of its own to those of its children |
| GeneratorLaws.FieldsCount | addon/generator.js:56-58 | the brackets of a child list are the sum of the children's brackets |
| GeneratorLaws.DelimitersBalanced | addon/generator.js:31-61 | in a field's text `{` and `}` are equally many, and so are `(` and `)`, if names, aliases and strings hold no brackets |
| GeneratorLaws.QuoteCollision | addon/generator.js:68-69 | since string values are not escaped, one argument whose value holds `", b: "` renders exactly like two arguments |
| GeneratorLaws.SelectionShape | tests/unit/generator-test.js:30 | the selection of the reference query renders as `{ id  status  author { id  username } } ` |
| Reader.StrRoundTrip | addon/generator.js:69 | a quoted string without quotes inside reads back as that string, leaving the rest of the text |
| Reader.IntRoundTrip | addon/generator.js:71 | an integer's text reads back as that integer, negative numbers included |
| Reader.ValueRoundTrip | addon/generator.js:68-72 | every well-formed value's text reads back as that value |
| Reader.ArgumentsRoundTrip | addon/generator.js:66-75 | the `join` in `generateArgumentSet`: arguments joined by `, ` read back as the same arguments in the same order |
| Reader.ArgumentListRoundTrip | addon/generator.js:63-78 | `generateArgumentSet`: the argument part, empty or parenthesised, reads back as the argument set |
| Reader.HeadRoundTrip | addon/generator.js:34-38 | the alias part and name read back as the same alias and name |
| Reader.FieldRoundTrip | addon/generator.js:31-51 | `generateField`: a well-formed field's text reads back as that field |
| Reader.SelectionRoundTrip | addon/generator.js:53-61 | `generateSelectionSet`: a selection's text reads back as the same children in the same order |
| Reader.FieldsRoundTrip | addon/generator.js:56-58 | the children's concatenated text reads back as the child list |
| Reader.OperationRoundTrip | addon/generator.js:18-25 | the generated text of a well-formed operation reads back as that operation |
| Reader.GenerateInjective | addon/generator.js:18-78 | two well-formed operations with the same text are the same operation |
| Parser.PushLeaves | addon/parser.js:10-14 | pushing the attributes keeps the existing fields as a prefix and appends one leaf per attribute, in order, named exactly as the attribute |
| Parser.RelationshipField | addon/parser.js:18-24 | a relationship field is named by the key, has no alias and no arguments, and selects `id` and then the related model's attributes |
| Parser.RelationshipFields | addon/parser.js:16-27 | planning succeeds exactly when every relationship key has a registered model; a failure names the first unregistered key; one field per key |
| Parser.RelationshipFieldAt | addon/parser.js:17-26 | the i-th planned relationship field is built from the i-th key and that key's registered model |
| Parser.RelationshipFieldsAll | addon/parser.js:16-27 | every planned relationship field is the field of its key and model, in relationship order |
| Parser.Parse | addon/parser.js:5-32 | parse succeeds exactly when every relationship resolves; the operation keeps its type, name, arguments and earlier selection and gains the root field last; the root field keeps its earlier children and gains `id`, the attribute leaves and the relationship fields, 1 + attributes + relationships in all |
| Parser.PlannedDepth | addon/parser.js:16-27 | every field parse adds is at most two levels deep, so related models' relationships are never expanded |
| Parser.ProjectsCount | tests/unit/parser-test.js:116-121 | a model with two attributes and one relationship gives the root field four children |
| Parser.ReflexiveRelationships | addon/parser.js:16-27 | with a registry keyed by relationship name that maps `parent` and `children` to `node`, the `node` model plans two fields, each selecting `id` and `name`, and the plan stops there: the shape the reflexive test (tests/unit/parser-test.js:206-241) expects |
| Parser.ReflexiveByType | tests/unit/parser-test.js:42-64 | under the test's store, which is keyed by model type, the same `node` model fails on its first relationship `parent`, because the code looks the related model up by relationship name (addon/parser.js:17) |
| Compiler.RootName | addon/compiler.js:15 | the root field is named by a truthy `rootFieldName` and otherwise by the model name |
| Compiler.RootField | addon/compiler.js:14-17 | the root field carries the root name and the alias, has no children, and has one argument per query key in key order, or none when there is no query |
| Compiler.CompileTree | addon/compiler.js:7-19 | the tree exists exactly when every relationship resolves; the operation has the given type and name, no arguments and exactly one root field, with the root name, alias and arguments and the planned children |
| Compiler.Compile | addon/compiler.js:7-22 | compiling fails exactly when a relationship does not resolve, and otherwise starts with the operation type, a space and the operation name |
| Compiler.MissingOptions | addon/compiler.js:8 | no options compile the same as empty options |
| Compiler.IgnoredOptions | addon/compiler.js:19 | `parseSelectionSet` and `normalizeCaseFn` do not change the compiled text |
| Compiler.CompileDecodes | addon/compiler.js:19-21 | for well-formed inputs the compiled text is the rendering of the planned tree, and decodes back to that tree |
| Compiler.PostTree | addon/compiler.js:7-19 | model `post` with attribute `name` and query `{id: "1"}` plans `post(id: "1")` selecting `id` and `name` |
| Compiler.PostExample | addon/compiler.js:7-22 | that example compiles to exactly `query post { post(id: "1") { id  name } } ` |
| Adapter.HeaderLine | addon/adapter.js:233-237 | a line yields a pair exactly when the first occurrence of `: ` is after position 0 (so `: a: b` yields nothing); the key is the text before its first occurrence, non-empty and free of `: `, and the value is everything after it |
| Adapter.HeaderPairs | addon/adapter.js:229-239 | every key read from the lines is non-empty and free of `: `, and there are no more pairs than lines; which line yields which pair is stated by Adapter.HeaderPairsFrom, Adapter.HeaderPairsConcat and Adapter.HeaderPairsSkip |
| Adapter.ParseResponseHeaders | addon/adapter.js:224-242 | an absent or empty header string gives an empty object, and every key is non-empty and free of `: `; the value of each key is stated by Adapter.ParseHeaderBlock |
| Adapter.HeaderPairsConcat | addon/adapter.js:229-239 | the loop reads every line on its own: the pairs of two runs of lines in sequence are the pairs of the first followed by the pairs of the second |
| Adapter.HeaderPairsSkip | addon/adapter.js:233-234 | a line whose first `: ` is missing or at position 0 contributes nothing, wherever it stands |
| Adapter.HeaderPairsFrom | addon/adapter.js:229-238 | a pair is among the parsed pairs exactly when some line yields it |
| Adapter.HeaderPairsReadings | addon/adapter.js:229-239 | the parsed pairs are the per-line readings in line order, with the lines that are not headers dropped |
| Adapter.PresentFrom | addon/adapter.js:234-237 | of the per-line readings, a pair is kept exactly when some reading is that pair |
| Adapter.PresentValues | addon/adapter.js:237 | assigning the kept pairs in order leaves a name present exactly when some reading carries it, with the value of the last such reading |
| Adapter.LastNamed | addon/adapter.js:229-239 | the reference reading from the end of the block finds no value exactly when no line carries the name |
| Adapter.LastNamedSets | addon/adapter.js:229-239 | a value the reference reading finds comes from a line carrying the name, after which no line carries it |
| Adapter.HeaderLaw | addon/adapter.js:229-239 | the object built from the lines holds a name exactly when some line yields it, and then the value of a line yielding it after which no line yields that name |
| Adapter.ParseHeaderBlock | addon/adapter.js:224-242 | `parseResponseHeaders` on a non-empty string: a name is present exactly when some CRLF-separated line yields it, and its value is the one from a line yielding it after which no line yields that name, so the last such line wins |
| Adapter.HeaderLineRoundTrip | addon/adapter.js:233-237 | a line written as `key: value`, with a key free of `: `, parses back to that key and value, even when the value itself holds `: ` |
| Adapter.HeaderPairsRoundTrip | addon/adapter.js:229-239 | lines written from header pairs parse back to the same pairs in the same order |
| Adapter.HeadersRoundTrip | addon/adapter.js:224-242 | a header block written from header pairs parses to the object those pairs assign, the last one winning |
| Adapter.EndpointText | addon/adapter.js:6 | a set endpoint is used as is, and the default null endpoint is concatenated as `null` |
| Adapter.BuildUrl | addon/adapter.js:71-73 | the URL is, position by position, the endpoint text (`null` for the default endpoint), `?`, the parameter name, `=` and the compiled query, with nothing encoded, and nothing more |
| Adapter.UrlRoundTrip | addon/adapter.js:71-73 | if the endpoint holds no `?` and the parameter no `=`, the URL splits back into the endpoint, the parameter name and the query |
| Adapter.DefaultUrl | addon/adapter.js:6-7 | with the default configuration the URL is `null?query=` followed by the query |
| Adapter.QueryOptions | addon/adapter.js:24-33 | `query` asks for a `query` operation whose name and root field are the pluralized model name, with the given query and no alias |
| Adapter.FindAllOptions | addon/adapter.js:43-53 | `findAll` asks for a `query` operation named by the pluralized model name, with no query and no alias |
| Adapter.FindRecordOptions | addon/adapter.js:62-69 | `findRecord` asks for a `query` operation whose name and root field are the model name, with the query `{id}` |
| Adapter.CreateRecordOptions | addon/adapter.js:79-92 | `createRecord` asks for a `mutation` named model name + `Create`, aliased to the model name, with the serialized record as query |
| Adapter.DeleteRecordOptions | addon/adapter.js:94-104 | `deleteRecord` asks for a `mutation` named model name + `Delete`, aliased to the model name, with the query `{id}` |
| Adapter.QueryTree | addon/adapter.js:24-33 | the compiled `query` tree carries one root argument per query key, in order |
| Adapter.FindAllTree | addon/adapter.js:43-53 | the compiled `findAll` tree has a root field without arguments, named by the pluralized name, or by the model name when that is empty |
| Adapter.FindRecordTree | addon/adapter.js:62-69 | the compiled `findRecord` tree has a root field named by the model, without alias, with the single argument `id` |
| Adapter.CreateRecordTree | addon/adapter.js:85-91 | the compiled `createRecord` tree is a mutation whose root field is aliased to the model name, and has no arguments when nothing was serialized |
| Adapter.DeleteRecordTree | addon/adapter.js:97-103 | the compiled `deleteRecord` tree is a mutation whose root field is aliased to the model name, with the single argument `id` |
| Adapter.HandleResponse | addon/adapter.js:215-221 | the response is an error exactly when the payload has `errors`, carrying their messages in order; otherwise it is the payload's `data` |
| Adapter.HandleResponseLaws | addon/adapter.js:215-221 | an empty `errors` array is still an error, and the status and headers never change the response |
| Serializer.Lookup | addon/serializer.js:5 | reading a key gives the value of its last entry, and nothing exactly when no entry has that key |
| Serializer.ExtractId | addon/serializer.js:4-6 | the id is the `id` entry of the record under the model name, and the hook fails exactly when there is no such record |
| Serializer.ExtractType | addon/serializer.js:8-10 | the type is the model name |
| Serializer.CopyAttributes | addon/serializer.js:15-16 | the attribute keys are exactly the re-keyed names of the entries other than `id` |
| Serializer.CopyLast | addon/serializer.js:15-16 | under each attribute key sits the value of the last entry, in enumeration order, that `keyFor` re-keys to it; a record holds each key once, so this is the later-enumerated key when `keyFor` maps two keys together |
| Serializer.ExtractAttributes | addon/serializer.js:12-19 | the attributes are the copied entries of the record under the model name, and the hook fails exactly when there is no such record |
| Serializer.ExtractRelationships | addon/serializer.js:21-23 | no relationships are ever extracted |
| Serializer.IdIgnored | addon/serializer.js:15 | an `id` entry, wherever it stands, does not change the attributes |
| Serializer.IdentityKeys | addon/serializer.js:12-19 | with keys kept as they are, `id` is absent and every other key of the record is present with its own value |

## Left out

- Request plumbing (`request`, `ajaxOptions`, promises, the ajax call, the run loop, request headers; addon/adapter.js:114-191) is network I/O and asynchrony, and is not modelled.
- `Ember.String.pluralize`, the serializer's `keyForAttribute`, and the record that `serializeIntoHash`/`serialize` produce come from code outside the core. They are parameters: `pluralize` and `keyFor` as functions, and the serialized query and id as given values.
- Argument values are strings, integers, booleans and null. JavaScript's text for arrays, objects, `undefined` and non-integer numbers is not modelled.
- Generator.ValueText: integers are the safe integers, at most 2^53 - 1 in size, which a JavaScript number holds exactly. Larger numbers lose precision in JavaScript, and from 10^21 up they are written in exponent notation (`1e+21`); neither is modelled, and the reader does not read a digit run beyond the safe range.
- The argument and selection sets are plain sequences. The generator's `.length` and `.forEach` on a selection set are read as sequence length and iteration. The re-export that binds `ArgumentSet` to the selection-set class (addon/types.js:2) is wiring, and the model does not reproduce it.
- Query objects are key/value sequences in enumeration order. JavaScript's rule that integer-like keys enumerate first is folded into that given order.
- A serializer record is a sequence of entries holding each key once, in `Object.keys` order, and a query object likewise. The record's values are of any type (the serializer is generic in it), since the hooks copy them without looking inside; only argument values are restricted. When `keyFor` maps two keys to one attribute, the later-enumerated key wins, as the source's assignment loop does.
- Assoc.ToMap: an object is read as a map, so every key is an own property. In JavaScript, assigning to `__proto__` sets the prototype and creates no property: a header line `__proto__: x` (addon/adapter.js:237), or an attribute that `keyFor` renames to `__proto__` (addon/serializer.js:16), leaves the object without that key, while the model stores it like any other key.
- `handleResponse` reads `errors` as a list of objects with a `message`; a non-array `errors` value is not modelled.
- No string escaping, no `undefined` filtering and no deeper relationship expansion are modelled, because the code has none.
- The record normaliser and the embedded-record handling of the serializer are not part of this model.
- Reader.OperationRoundTrip: the round trip, and so GenerateInjective and Compiler.CompileDecodes, requires well-formed trees. Names and aliases must be identifiers, and strings must hold no double quote. Without that the text is ambiguous, as GeneratorLaws.QuoteCollision shows.
- Parser.Parse: where the source throws on an unregistered relationship model, the model returns a `Failure` naming the key; it does not model the exception.
- Generator.GenerateFields: its own contract only says that a non-empty list starts with a space. The full shape is stated by GeneratorLaws.FieldsConcat and Reader.FieldsRoundTrip.
- Serializer.ExtractType and Serializer.ExtractRelationships: the hooks are constant in the source, so their contracts say no more than that.

=== FILE: adapter.dfy ===
/** The pure parts of the adapter (addon/adapter.js): the option records its
    hooks hand to the compiler, the request URL, the response-header parser
    and the payload check. The request itself (promises, ajax, run loop)
    is not modelled. */
module Adapter {
  import opened Wrappers
  import opened Text
  import opened Assoc
  import opened Types
  import opened Generator
  import opened Parser
  import opened Compiler

  // ---------------------------------------------------------------------
  // parseResponseHeaders
  // ---------------------------------------------------------------------

  /** The separator between a header's name and its value. */
  const HeaderSeparator: string := ": "

  /** One header line: the text before the first `": "` and the text after
      it, provided the separator occurs and not at the very start. */
  function HeaderLine(line: string): (r: Option<(string, string)>)
    ensures r.Some? <==> IndexOf(line, HeaderSeparator).Some? && IndexOf(line, HeaderSeparator).value > 0
    ensures r.Some? ==> line == r.value.0 + HeaderSeparator + r.value.1
    ensures r.Some? ==> r.value.0 != "" && !Contains(r.value.0, HeaderSeparator)
  {
    match IndexOf(line, HeaderSeparator)
    case None => None
    case Some(i) =>
      if i > 0 then
        SplitAround(line, HeaderSeparator, i);
        BeforeFirst(line, HeaderSeparator, i);
        Some((line[..i], line[i + 2..]))
      else None
  }

  /** The pairs of the lines that are headers, in line order. */
  function HeaderPairs(lines: seq<string>): (r: seq<(string, string)>)
    ensures |r| <= |lines|
    ensures forall i :: 0 <= i < |r| ==> r[i].0 != "" && !Contains(r[i].0, HeaderSeparator)
  {
    if |lines| == 0 then []
    else
      match HeaderLine(lines[0])
      case None => HeaderPairs(lines[1..])
      case Some(pair) => [pair] + HeaderPairs(lines[1..])
  }

  /** `parseResponseHeaders`: nothing for an absent or empty header block;
      otherwise one entry per header line, a later line overwriting an
      earlier one with the same name. */
  function ParseResponseHeaders(headerStr: Option<string>): (r: map<string, string>)
    ensures headerStr.None? || headerStr.value == "" ==> r == map[]
    ensures forall k :: k in r ==> k != "" && !Contains(k, HeaderSeparator)
  {
    if headerStr.None? || headerStr.value == "" then map[]
    else
      var pairs := HeaderPairs(Split(headerStr.value, CRLF));
      var m := ToMap(pairs);
      assert forall k :: k in m ==> exists i :: 0 <= i < |pairs| && pairs[i].0 == k;
      m
  }

  /** The header lines of `xs + ys` are those of `xs` followed by those of
      `ys`: every line is read on its own, in order. */
  lemma {:induction false} HeaderPairsConcat(xs: seq<string>, ys: seq<string>)
    ensures HeaderPairs(xs + ys) == HeaderPairs(xs) + HeaderPairs(ys)
    decreases |xs|
  {
    if |xs| > 0 {
      assert (xs + ys)[0] == xs[0] && (xs + ys)[1..] == xs[1..] + ys;
      HeaderPairsConcat(xs[1..], ys);
    } else {
      assert xs + ys == ys;
    }
  }

  /** The header pairs of a one-line block: the line's own reading. */
  lemma HeaderPairsOne(line: string)
    ensures HeaderPairs([line]) == (match HeaderLine(line) case None => [] case Some(p) => [p])
  {
    assert [line][0] == line && [line][1..] == [];
  }

  /** A line without a usable `": "` contributes nothing. */
  lemma HeaderPairsSkip(xs: seq<string>, bad: string, ys: seq<string>)
    requires HeaderLine(bad).None?
    ensures HeaderPairs(xs + [bad] + ys) == HeaderPairs(xs) + HeaderPairs(ys)
  {
    var front := xs + [bad];
    HeaderPairsConcat(front, ys);
    HeaderPairsConcat(xs, [bad]);
    HeaderPairsOne(bad);
    assert HeaderPairs(front) == HeaderPairs(xs);
  }

  /** One reading per line: the header pair the line holds, if any. */
  function Readings(lines: seq<string>): (r: seq<Option<(string, string)>>)
    ensures |r| == |lines|
    ensures forall i :: 0 <= i < |lines| ==> r[i] == HeaderLine(lines[i])
  {
    if |lines| == 0 then [] else [HeaderLine(lines[0])] + Readings(lines[1..])
  }

  /** The pairs among the readings, in reading order. */
  function Present(rs: seq<Option<(string, string)>>): (r: seq<(string, string)>)
    ensures |r| <= |rs|
  {
    if |rs| == 0 then []
    else
      match rs[0]
      case None => Present(rs[1..])
      case Some(p) => [p] + Present(rs[1..])
  }

  /** Reading the lines one by one and keeping the pairs is what
      `HeaderPairs` does. */
  lemma {:induction false} HeaderPairsReadings(lines: seq<string>)
    ensures HeaderPairs(lines) == Present(Readings(lines))
    decreases |lines|
  {
    if |lines| > 0 {
      HeaderPairsReadings(lines[1..]);
      assert Readings(lines)[1..] == Readings(lines[1..]);
    }
  }

  lemma {:induction false} PresentConcat(xs: seq<Option<(string, string)>>, ys: seq<Option<(string, string)>>)
    ensures Present(xs + ys) == Present(xs) + Present(ys)
    decreases |xs|
  {
    if |xs| > 0 {
      assert (xs + ys)[0] == xs[0] && (xs + ys)[1..] == xs[1..] + ys;
      PresentConcat(xs[1..], ys);
    } else {
      assert xs + ys == ys;
    }
  }

  lemma {:induction false} PresentFrom(rs: seq<Option<(string, string)>>, p: (string, string))
    ensures p in Present(rs) <==> Some(p) in rs
    decreases |rs|
  {
    if |rs| > 0 {
      PresentFrom(rs[1..], p);
      assert rs == [rs[0]] + rs[1..];
    }
  }

  /** A pair is parsed exactly when some line yields it. */
  lemma HeaderPairsFrom(lines: seq<string>, p: (string, string))
    ensures p in HeaderPairs(lines) <==> exists i :: 0 <= i < |lines| && HeaderLine(lines[i]) == Some(p)
  {
    var rs := Readings(lines);
    HeaderPairsReadings(lines);
    PresentFrom(rs, p);
    if Some(p) in rs {
      var i :| 0 <= i < |rs| && rs[i] == Some(p);
      assert HeaderLine(lines[i]) == Some(p);
    }
  }

  /** The reading is a header named `key`. */
  predicate Names(reading: Option<(string, string)>, key: string) {
    reading.Some? && reading.value.0 == key
  }

  /** The value the last reading named `key` gives, if any reading does: a
      reference reading of the header block, from its end. */
  function LastNamed(rs: seq<Option<(string, string)>>, key: string): (r: Option<string>)
    ensures r.None? <==> forall i :: 0 <= i < |rs| ==> !Names(rs[i], key)
  {
    if |rs| == 0 then None
    else
      var init := rs[..|rs| - 1];
      var last := rs[|rs| - 1];
      assert forall i :: 0 <= i < |init| ==> init[i] == rs[i];
      if Names(last, key) then Some(last.value.1) else LastNamed(init, key)
  }

  /** Reading `i` sets `key` to `v`, and no later reading names `key`. */
  predicate LastSets(rs: seq<Option<(string, string)>>, key: string, i: int, v: string) {
    && 0 <= i < |rs|
    && rs[i] == Some((key, v))
    && forall j :: i < j < |rs| ==> !Names(rs[j], key)
  }

  /** The value `LastNamed` finds comes from a reading named `key` that no
      later reading of that name follows. */
  lemma {:induction false} LastNamedSets(rs: seq<Option<(string, string)>>, key: string)
    requires LastNamed(rs, key).Some?
    ensures exists i :: LastSets(rs, key, i, LastNamed(rs, key).value)
    decreases |rs|
  {
    var n := |rs| - 1;
    var init := rs[..n];
    var v := LastNamed(rs, key).value;
    if Names(rs[n], key) {
      assert LastSets(rs, key, n, v);
    } else {
      LastNamedSets(init, key);
      var i :| LastSets(init, key, i, v);
      assert init[i] == rs[i];
      forall j | i < j < |rs| ensures !Names(rs[j], key) {
        if j < n {
          assert init[j] == rs[j];
        }
      }
      assert LastSets(rs, key, i, v);
    }
  }

  /** The object the pairs build holds exactly the names some reading
      carries, each with the value of the last reading that carries it. */
  lemma {:induction false} PresentValues(rs: seq<Option<(string, string)>>, key: string)
    ensures var m := ToMap(Present(rs));
      && (key in m <==> LastNamed(rs, key).Some?)
      && (key in m ==> m[key] == LastNamed(rs, key).value)
    decreases |rs|
  {
    if |rs| > 0 {
      var init := rs[..|rs| - 1];
      var last := rs[|rs| - 1];
      assert rs == init + [last];
      PresentConcat(init, [last]);
      assert Present([last][1..]) == [] by { assert [last][1..] == []; }
      PresentValues(init, key);
      match last
      case None =>
        assert Present(rs) == Present(init) + [];
        assert Present(init) + [] == Present(init);
      case Some(pair) =>
        assert Present(rs) == Present(init) + [pair];
        ToMapSnoc(Present(init), pair);
    }
  }

  /** The line is a header named `key`. */
  predicate Yields(line: string, key: string) {
    HeaderLine(line).Some? && HeaderLine(line).value.0 == key
  }

  /** The reading of line `i` names `key` exactly when the line yields it. */
  lemma ReadingYields(lines: seq<string>, key: string, i: int)
    requires 0 <= i < |lines|
    ensures Names(Readings(lines)[i], key) <==> Yields(lines[i], key)
  {
  }

  /** The object the header lines build holds a name exactly when some line
      yields it. */
  lemma HeaderNames(lines: seq<string>, key: string)
    ensures key in ToMap(HeaderPairs(lines)) <==> exists i :: 0 <= i < |lines| && Yields(lines[i], key)
  {
    var rs := Readings(lines);
    HeaderPairsReadings(lines);
    PresentValues(rs, key);
    if exists i :: 0 <= i < |lines| && Yields(lines[i], key) {
      var i :| 0 <= i < |lines| && Yields(lines[i], key);
      ReadingYields(lines, key, i);
    }
    if exists i :: 0 <= i < |rs| && Names(rs[i], key) {
      var i :| 0 <= i < |rs| && Names(rs[i], key);
      ReadingYields(lines, key, i);
    }
  }

  /** A name in the object the header lines build has the value the last
      reading of that name gives. */
  lemma HeaderValue(lines: seq<string>, key: string)
    requires key in ToMap(HeaderPairs(lines))
    ensures LastNamed(Readings(lines), key).Some?
    ensures ToMap(HeaderPairs(lines))[key] == LastNamed(Readings(lines), key).value
  {
    HeaderPairsReadings(lines);
    PresentValues(Readings(lines), key);
  }

  /** The value the last reading named `key` gives comes from a line that
      sets `key` to it and that no later line naming `key` follows. */
  lemma HeaderLast(lines: seq<string>, key: string)
    requires LastNamed(Readings(lines), key).Some?
    ensures var v := LastNamed(Readings(lines), key).value;
      exists i :: 0 <= i < |lines| && HeaderLine(lines[i]) == Some((key, v))
                  && forall j :: i < j < |lines| ==> !Yields(lines[j], key)
  {
    var rs := Readings(lines);
    var v := LastNamed(rs, key).value;
    LastNamedSets(rs, key);
    var i :| LastSets(rs, key, i, v);
    forall j | i < j < |lines| ensures !Yields(lines[j], key) {
      ReadingYields(lines, key, j);
    }
    assert HeaderLine(lines[i]) == Some((key, v));
  }

  /** `m` holds `key` exactly when some line yields it, with the value the
      last such line gives. */
  predicate BuiltFrom(lines: seq<string>, m: map<string, string>, key: string) {
    && (key in m <==> exists i :: 0 <= i < |lines| && Yields(lines[i], key))
    && (key in m ==> exists i :: 0 <= i < |lines| && HeaderLine(lines[i]) == Some((key, m[key]))
                                 && forall j :: i < j < |lines| ==> !Yields(lines[j], key))
  }

  /** The object the header lines build follows the last-line-wins law. */
  lemma HeaderLaw(lines: seq<string>, key: string)
    ensures BuiltFrom(lines, ToMap(HeaderPairs(lines)), key)
  {
    HeaderNames(lines, key);
    if key in ToMap(HeaderPairs(lines)) {
      HeaderValue(lines, key);
      HeaderLast(lines, key);
    }
  }

  /** `parseResponseHeaders` on a non-empty block: a name is present exactly
      when some CRLF-separated line is a header of that name, and its value
      is the one that the last such line gives. */
  lemma ParseHeaderBlock(block: string, key: string)
    requires block != ""
    ensures BuiltFrom(Split(block, CRLF), ParseResponseHeaders(Some(block)), key)
  {
    var lines := Split(block, CRLF);
    assert ParseResponseHeaders(Some(block)) == ToMap(HeaderPairs(lines));
    HeaderLaw(lines, key);
  }

  /** A header that survives rendering and parsing: a non-empty name free of
      `": "`, and a name and value on one line each. */
  predicate WfHeader(header: (string, string)) {
    header.0 != "" && !Contains(header.0, HeaderSeparator) && SingleLine(header.0) && SingleLine(header.1)
  }

  function HeaderText(header: (string, string)): (line: string) {
    header.0 + HeaderSeparator + header.1
  }

  function HeaderTexts(headers: seq<(string, string)>): (r: seq<string>)
    ensures |r| == |headers|
    ensures forall i :: 0 <= i < |headers| ==> r[i] == HeaderText(headers[i])
  {
    if |headers| == 0 then [] else [HeaderText(headers[0])] + HeaderTexts(headers[1..])
  }

  /** A header block as a server sends it: `name: value` lines joined by
      CRLF. */
  function RenderHeaders(headers: seq<(string, string)>): (block: string) {
    Join(HeaderTexts(headers), CRLF)
  }

  lemma HeaderLineRoundTrip(header: (string, string))
    requires WfHeader(header)
    ensures HeaderLine(HeaderText(header)) == Some(header)
  {
    var line := HeaderText(header);
    FirstOccurrence(header.0, HeaderSeparator, header.1);
    assert line[..|header.0|] == header.0;
    assert line[|header.0| + 2..] == header.1;
  }

  lemma {:induction false} HeaderPairsRoundTrip(headers: seq<(string, string)>)
    requires forall i :: 0 <= i < |headers| ==> WfHeader(headers[i])
    ensures HeaderPairs(HeaderTexts(headers)) == headers
    decreases |headers|
  {
    if |headers| > 0 {
      var lines := HeaderTexts(headers);
      HeaderLineRoundTrip(headers[0]);
      assert lines[1..] == HeaderTexts(headers[1..]);
      HeaderPairsRoundTrip(headers[1..]);
      FirstAndRest(headers);
    }
  }

  lemma HeaderTextSingleLine(header: (string, string))
    requires WfHeader(header)
    ensures !Contains(HeaderText(header), CRLF)
  {
    var line := HeaderText(header);
    assert SingleLine(line) by {
      forall i | 0 <= i < |line| ensures line[i] != '\r' && line[i] != '\n' {
        if i < |header.0| {
          assert line[i] == header.0[i];
        } else if i >= |header.0| + 2 {
          assert line[i] == header.1[i - |header.0| - 2];
        }
      }
    }
    SingleLineHasNoCRLF(line);
  }

  /** Parsing a rendered header block gives back the headers, a later
      header overwriting an earlier one with the same name. */
  lemma HeadersRoundTrip(headers: seq<(string, string)>)
    requires forall i :: 0 <= i < |headers| ==> WfHeader(headers[i])
    ensures ParseResponseHeaders(Some(RenderHeaders(headers))) == ToMap(headers)
  {
    if |headers| > 0 {
      var lines := HeaderTexts(headers);
      var block := Join(lines, CRLF);
      forall i | 0 <= i < |lines| ensures !Contains(lines[i], CRLF) {
        HeaderTextSingleLine(headers[i]);
      }
      SplitJoin(lines, CRLF);
      HeaderPairsRoundTrip(headers);
      JoinLength(lines, CRLF);
      ParseNonEmpty(block, lines);
    }
  }

  /** How a non-empty header block is parsed once it is split into lines. */
  lemma ParseNonEmpty(block: string, lines: seq<string>)
    requires block != "" && Split(block, CRLF) == lines
    ensures ParseResponseHeaders(Some(block)) == ToMap(HeaderPairs(lines))
  {
  }

  /** A joined list is at least as long as its first part. */
  lemma JoinLength(parts: seq<string>, sep: string)
    requires |parts| > 0
    ensures |Join(parts, sep)| >= |parts[0]|
  {
    if |parts| > 1 {
      JoinCons(parts, sep);
    }
  }

  // ---------------------------------------------------------------------
  // buildUrl
  // ---------------------------------------------------------------------

  /** The adapter's two settings: the endpoint (none by default) and the
      query parameter name. */
  datatype AdapterConfig = AdapterConfig(endpoint: Option<string>, param: string)

  const DefaultConfig := AdapterConfig(None, "query")

  /** JavaScript string conversion of the endpoint: `null` when unset. */
  function EndpointText(endpoint: Option<string>): (r: string)
    ensures endpoint.Some? ==> r == endpoint.value
    ensures endpoint.None? ==> r == "null"
  {
    if endpoint.Some? then endpoint.value else "null"
  }

  /** `buildUrl`: endpoint, `?`, parameter name, `=`, and the compiled query
      without any encoding. */
  function BuildUrl(config: AdapterConfig, compiledQuery: string): (url: string)
    ensures var head := EndpointText(config.endpoint);
      var eq := |head| + 1 + |config.param|;
      && |url| == eq + 1 + |compiledQuery|
      && url[..|head|] == head
      && url[|head|] == '?'
      && url[|head| + 1..eq] == config.param
      && url[eq] == '='
      && url[eq + 1..] == compiledQuery
  {
    EndpointText(config.endpoint) + "?" + config.param + "=" + compiledQuery
  }

  /** Reading a URL back: the text before the first `?`, then the text up to
      the next `=`, then the rest. */
  function SplitUrl(url: string): (r: Option<(string, string, string)>)
    ensures r.Some? ==> url == r.value.0 + "?" + r.value.1 + "=" + r.value.2
  {
    match IndexOf(url, "?")
    case None => None
    case Some(i) =>
      SplitAround(url, "?", i);
      match SplitParam(url[i + 1..])
      case None => None
      case Some((param, query)) =>
        Concat5Assoc(url[..i], "?", param, "=", query);
        Some((url[..i], param, query))
  }

  /** The query string cut at its first `=`. */
  function SplitParam(rest: string): (r: Option<(string, string)>)
    ensures r.Some? ==> rest == r.value.0 + "=" + r.value.1
  {
    match IndexOf(rest, "=")
    case None => None
    case Some(j) =>
      SplitAround(rest, "=", j);
      Some((rest[..j], rest[j + 1..]))
  }

  /** How `SplitUrl` uses the two separator positions. */
  lemma SplitUrlAt(url: string, i: nat, j: nat)
    requires IndexOf(url, "?") == Some(i) && IndexOf(url[i + 1..], "=") == Some(j)
    ensures SplitUrl(url) == Some((url[..i], url[i + 1..][..j], url[i + 1..][j + 1..]))
  {
  }

  /** When neither the endpoint holds `?` nor the parameter name `=`, the
      URL gives back the endpoint, the parameter name and the query text,
      whatever the query text holds. */
  lemma UrlRoundTrip(config: AdapterConfig, compiledQuery: string)
    requires !Contains(EndpointText(config.endpoint), "?") && !Contains(config.param, "=")
    ensures SplitUrl(BuildUrl(config, compiledQuery)) == Some((EndpointText(config.endpoint), config.param, compiledQuery))
  {
    var endpoint := EndpointText(config.endpoint);
    Concat5Assoc(endpoint, "?", config.param, "=", compiledQuery);
    SplitJoined(endpoint, config.param, config.param + "=" + compiledQuery, compiledQuery);
  }

  /** `SplitUrl` on a URL written as its three parts. */
  lemma SplitJoined(endpoint: string, param: string, rest: string, compiledQuery: string)
    requires !Contains(endpoint, "?") && !Contains(param, "=")
    requires rest == param + "=" + compiledQuery
    ensures SplitUrl(endpoint + ("?" + rest)) == Some((endpoint, param, compiledQuery))
  {
    var url := endpoint + ("?" + rest);
    assert url == endpoint + "?" + rest;
    FirstOccurrence(endpoint, "?", rest);
    FirstOccurrence(param, "=", compiledQuery);
    assert url[|endpoint| + 1..] == rest;
    SplitUrlAt(url, |endpoint|, |param|);
    assert url[..|endpoint|] == endpoint;
    assert rest[..|param|] == param;
    assert rest[|param| + 1..] == compiledQuery;
  }

  /** The default URL: `null?query=` followed by the query text. */
  lemma DefaultUrl(compiledQuery: string)
    ensures BuildUrl(DefaultConfig, compiledQuery) == "null?query=" + compiledQuery
  {
  }

  // ---------------------------------------------------------------------
  // The options records of the hooks
  // ---------------------------------------------------------------------

  /** `query(store, type, query)`: a query named after the pluralised model
      name, with the query object as root arguments. */
  function QueryOptions(modelName: string, query: Query, pluralize: string -> string): (o: CompileOptions)
    ensures o.operationType == Some("query")
    ensures o.operationName == Some(pluralize(modelName)) && o.rootFieldName == Some(pluralize(modelName))
    ensures o.rootFieldQuery == Some(query) && o.rootFieldAlias.None?
  {
    var operationName := pluralize(modelName);
    NoOptions.(rootFieldName := Some(operationName), rootFieldQuery := Some(query),
               operationType := Some("query"), operationName := Some(operationName))
  }

  /** `findAll(store, type)`: like `query` but with no query object. */
  function FindAllOptions(modelName: string, pluralize: string -> string): (o: CompileOptions)
    ensures o.operationType == Some("query")
    ensures o.operationName == Some(pluralize(modelName)) && o.rootFieldName == Some(pluralize(modelName))
    ensures o.rootFieldQuery.None? && o.rootFieldAlias.None?
  {
    var operationName := pluralize(modelName);
    NoOptions.(rootFieldName := Some(operationName), operationName := Some(operationName), operationType := Some("query"))
  }

  /** `findRecord(store, type, id)`: a query named after the model, asking
      for the one record with that id. */
  function FindRecordOptions(modelName: string, id: string): (o: CompileOptions)
    ensures o.operationType == Some("query")
    ensures o.operationName == Some(modelName) && o.rootFieldName == Some(modelName)
    ensures o.rootFieldQuery == Some([("id", Str(id))]) && o.rootFieldAlias.None?
  {
    NoOptions.(rootFieldQuery := Some([("id", Str(id))]), rootFieldName := Some(modelName),
               operationType := Some("query"), operationName := Some(modelName))
  }

  /** `createRecord(store, type, snapshot)`: a mutation `<model>Create`
      aliased to the model name, whose arguments are the serialised record
      found under the model name in the hash `serializeIntoHash` filled
      (absent when the serializer put nothing there). */
  function CreateRecordOptions(modelName: string, serialized: Option<Query>): (o: CompileOptions)
    ensures o.operationType == Some("mutation")
    ensures o.operationName == Some(modelName + "Create") && o.rootFieldName == Some(modelName + "Create")
    ensures o.rootFieldQuery == serialized && o.rootFieldAlias == Some(modelName)
  {
    NoOptions.(rootFieldQuery := serialized, rootFieldAlias := Some(modelName), rootFieldName := Some(modelName + "Create"),
               operationType := Some("mutation"), operationName := Some(modelName + "Create"))
  }

  /** `deleteRecord(store, type, snapshot)`: a mutation `<model>Delete`
      aliased to the model name, whose one argument is the id `serialize`
      produced. */
  function DeleteRecordOptions(modelName: string, id: Value): (o: CompileOptions)
    ensures o.operationType == Some("mutation")
    ensures o.operationName == Some(modelName + "Delete") && o.rootFieldName == Some(modelName + "Delete")
    ensures o.rootFieldQuery == Some([("id", id)]) && o.rootFieldAlias == Some(modelName)
  {
    NoOptions.(rootFieldName := Some(modelName + "Delete"), rootFieldAlias := Some(modelName),
               rootFieldQuery := Some([("id", id)]), operationType := Some("mutation"),
               operationName := Some(modelName + "Delete"))
  }

  /** The tree `findRecord` compiles: a query named after the model whose one
      root field, named after the model, takes the id as its one argument. */
  lemma FindRecordTree(model: ModelDescription, registry: Registry, id: string)
    requires Resolvable(model, registry)
    ensures
      var r := CompileTree(model, registry, Some(FindRecordOptions(model.modelName, id)));
      && r.Success?
      && r.value.opType == Some("query") && r.value.name == Some(model.modelName)
      && r.value.selection[0].name == model.modelName && r.value.selection[0].alias.None?
      && r.value.selection[0].arguments == [Argument("id", Str(id))]
  {
  }

  /** The tree `findAll` compiles: no root arguments, and the root field
      named by the plural, or by the model name when the plural is empty. */
  lemma FindAllTree(model: ModelDescription, registry: Registry, pluralize: string -> string)
    requires Resolvable(model, registry)
    ensures
      var r := CompileTree(model, registry, Some(FindAllOptions(model.modelName, pluralize)));
      && r.Success?
      && r.value.opType == Some("query") && r.value.name == Some(pluralize(model.modelName))
      && r.value.selection[0].name == (if pluralize(model.modelName) != "" then pluralize(model.modelName) else model.modelName)
      && r.value.selection[0].arguments == []
  {
  }

  /** The tree `query` compiles: the query object's entries, in order, as
      root arguments. */
  lemma QueryTree(model: ModelDescription, registry: Registry, query: Query, pluralize: string -> string)
    requires Resolvable(model, registry)
    ensures
      var r := CompileTree(model, registry, Some(QueryOptions(model.modelName, query, pluralize)));
      && r.Success?
      && r.value.opType == Some("query") && r.value.name == Some(pluralize(model.modelName))
      && |r.value.selection[0].arguments| == |query|
      && forall i :: 0 <= i < |query| ==> r.value.selection[0].arguments[i] == Argument(query[i].0, query[i].1)
  {
  }

  /** The tree `createRecord` compiles: a mutation whose root field is
      aliased back to the model name, so the response is keyed by the model
      name. */
  lemma CreateRecordTree(model: ModelDescription, registry: Registry, serialized: Option<Query>)
    requires Resolvable(model, registry)
    ensures
      var create := CompileTree(model, registry, Some(CreateRecordOptions(model.modelName, serialized)));
      && create.Success? && create.value.opType == Some("mutation")
      && create.value.selection[0].name == model.modelName + "Create"
      && create.value.selection[0].alias == Some(model.modelName)
      && (serialized.None? ==> create.value.selection[0].arguments == [])
  {
    assert |model.modelName + "Create"| > 0;
  }

  /** The tree `deleteRecord` compiles: a mutation aliased back to the model
      name whose one root argument is the id. */
  lemma DeleteRecordTree(model: ModelDescription, registry: Registry, id: Value)
    requires Resolvable(model, registry)
    ensures
      var delete := CompileTree(model, registry, Some(DeleteRecordOptions(model.modelName, id)));
      && delete.Success? && delete.value.opType == Some("mutation")
      && delete.value.selection[0].name == model.modelName + "Delete"
      && delete.value.selection[0].alias == Some(model.modelName)
      && delete.value.selection[0].arguments == [Argument("id", id)]
  {
    assert |model.modelName + "Delete"| > 0;
  }

  // ---------------------------------------------------------------------
  // handleResponse
  // ---------------------------------------------------------------------

  /** One entry of a payload's `errors` list. */
  datatype ErrorObject = ErrorObject(message: Option<string>)

  /** A response payload: an optional (always truthy when present) `errors`
      list and an optional `data` entry. */
  datatype Payload<D> = Payload(errors: Option<seq<ErrorObject>>, data: Option<D>)

  /** What `handleResponse` returns: an invalid-record error carrying the
      messages, or the payload's data (possibly absent). */
  datatype Response<D> = InvalidError(messages: seq<Option<string>>) | Data(data: Option<D>)

  /** `handleResponse`: the status and headers are not consulted. */
  function HandleResponse<D>(status: int, headers: map<string, string>, payload: Payload<D>): (r: Response<D>)
    ensures r.InvalidError? <==> payload.errors.Some?
    ensures r.InvalidError? ==>
      && |r.messages| == |payload.errors.value|
      && forall i :: 0 <= i < |r.messages| ==> r.messages[i] == payload.errors.value[i].message
    ensures r.Data? ==> r.data == payload.data
  {
    match payload.errors
    case Some(errors) => InvalidError(seq(|errors|, i requires 0 <= i < |errors| => errors[i].message))
    case None => Data(payload.data)
  }

  /** An empty `errors` list still makes the response an error, and the
      data is then dropped; status and headers never matter. */
  lemma HandleResponseLaws<D>(status: int, headers: map<string, string>, status2: int, headers2: map<string, string>, data: Option<D>, payload: Payload<D>)
    ensures HandleResponse(status, headers, Payload(Some([]), data)) == InvalidError([])
    ensures HandleResponse(status, headers, payload) == HandleResponse(status2, headers2, payload)
  {
  }
}

=== FILE: assoc.dfy ===
/** Building a map from an ordered list of key/value pairs the way a
    JavaScript loop of `obj[key] = value` assignments does: every key of the
    list ends up in the map, and a later pair overwrites an earlier one. */
module Assoc {

  /** No pair after index `i` has the same key as pair `i`. */
  predicate LastWithKey<K(==), V>(pairs: seq<(K, V)>, i: int)
    requires 0 <= i < |pairs|
  {
    forall j :: i < j < |pairs| ==> pairs[j].0 != pairs[i].0
  }

  function ToMap<K(==), V>(pairs: seq<(K, V)>): (m: map<K, V>)
    ensures m.Keys == set i | 0 <= i < |pairs| :: pairs[i].0
    ensures forall i :: 0 <= i < |pairs| && LastWithKey(pairs, i) ==> m[pairs[i].0] == pairs[i].1
  {
    if |pairs| == 0 then map[]
    else
      var init := pairs[..|pairs| - 1];
      var last := pairs[|pairs| - 1];
      assert forall i :: 0 <= i < |init| ==> init[i] == pairs[i];
      ToMap(init)[last.0 := last.1]
  }

  /** Assigning one more pair updates the object built so far. */
  lemma ToMapSnoc<K, V>(pairs: seq<(K, V)>, p: (K, V))
    ensures ToMap(pairs + [p]) == ToMap(pairs)[p.0 := p.1]
  {
    assert (pairs + [p])[..|pairs|] == pairs;
  }
}

=== FILE: compiler.dfy ===
/** The compiler (addon/compiler.js): builds the operation and its root field
    from the options, lets the planner fill in the selection, and renders
    the result. */
module Compiler {
  import opened Wrappers
  import opened Text
  import opened Types
  import opened Generator
  import opened GeneratorLaws
  import opened Reader
  import opened Parser

  /** The options object. Every entry may be absent. `parseSelectionSet` and
      `normalizeCaseFn` are accepted but never read. */
  datatype CompileOptions = CompileOptions(
    operationType: Option<string>,
    operationName: Option<string>,
    rootFieldName: Option<string>,
    rootFieldAlias: Option<string>,
    rootFieldQuery: Option<Query>,
    parseSelectionSet: Option<bool>,
    normalizeCaseFn: Option<string -> string>)

  /** `{}`: every entry absent. */
  const NoOptions := CompileOptions(None, None, None, None, None, None, None)

  /** `options['rootFieldName'] || model.modelName`: a missing or empty name
      falls back to the model name. */
  function RootName(model: ModelDescription, options: CompileOptions): (name: string)
    ensures Truthy(options.rootFieldName) ==> name == options.rootFieldName.value
    ensures !Truthy(options.rootFieldName) ==> name == model.modelName
  {
    if Truthy(options.rootFieldName) then options.rootFieldName.value else model.modelName
  }

  /** The root field before planning: its arguments come from the query in
      key order, an absent query giving none. */
  function RootField(model: ModelDescription, options: CompileOptions): (f: Field)
    ensures f.name == RootName(model, options) && f.alias == options.rootFieldAlias && f.selection == []
    ensures options.rootFieldQuery.None? ==> f.arguments == []
    ensures options.rootFieldQuery.Some? ==>
      |f.arguments| == |options.rootFieldQuery.value|
      && forall i :: 0 <= i < |f.arguments| ==> f.arguments[i] == Argument(options.rootFieldQuery.value[i].0, options.rootFieldQuery.value[i].1)
  {
    var query := options.rootFieldQuery.Or([]);
    NewField(RootName(model, options), options.rootFieldAlias, Some(FromQuery(query)), None)
  }

  /** The planned tree `compile` renders. */
  function CompileTree(model: ModelDescription, registry: Registry, options: Option<CompileOptions>): (r: Result<Operation, ParseError>)
    ensures r.Success? <==> Resolvable(model, registry)
    ensures r.Success? ==>
      var o := options.Or(NoOptions);
      && r.value.opType == o.operationType && r.value.name == o.operationName
      && r.value.arguments == [] && |r.value.selection| == 1
      && r.value.selection[0].name == RootName(model, o)
      && r.value.selection[0].alias == o.rootFieldAlias
      && r.value.selection[0].arguments == RootField(model, o).arguments
      && Planned(model, registry, r.value.selection[0].selection)
  {
    var o := options.Or(NoOptions);
    var operation := NewOperation(o.operationType, o.operationName, None, None);
    var root := RootField(model, o);
    var r := Parse(model, registry, operation, root);
    assert r.Success? ==> r.value.selection[0].selection[0..] == r.value.selection[0].selection;
    r
  }

  /** `Compiler.compile`: the rendering of the planned tree. */
  function Compile(model: ModelDescription, registry: Registry, options: Option<CompileOptions>): (r: Result<string, ParseError>)
    ensures r.Success? <==> Resolvable(model, registry)
    ensures r.Success? ==>
      var o := options.Or(NoOptions);
      HasPrefix(r.value, JsText(o.operationType) + " " + JsText(o.operationName))
  {
    match CompileTree(model, registry, options)
    case Failure(e) => Failure(e)
    case Success(operation) => Success(Generate(operation))
  }

  /** A missing options object compiles exactly like an empty one. */
  lemma MissingOptions(model: ModelDescription, registry: Registry)
    ensures Compile(model, registry, None) == Compile(model, registry, Some(NoOptions))
  {
  }

  /** The two options the compiler accepts but never reads do not change
      its output. */
  lemma IgnoredOptions(model: ModelDescription, registry: Registry, options: CompileOptions,
                       parseSelectionSet: Option<bool>, normalizeCaseFn: Option<string -> string>)
    ensures Compile(model, registry, Some(options))
         == Compile(model, registry, Some(options.(parseSelectionSet := parseSelectionSet, normalizeCaseFn := normalizeCaseFn)))
  {
    var other := options.(parseSelectionSet := parseSelectionSet, normalizeCaseFn := normalizeCaseFn);
    assert RootField(model, options) == RootField(model, other);
  }

  /** Inputs whose rendering is unambiguous: the operation type and name,
      the root name and alias, the query keys, attribute names and
      relationship keys are delimiter-free names, and string query values
      hold no double quote. */
  predicate WellFormedInputs(model: ModelDescription, registry: Registry, options: CompileOptions) {
    && options.operationType.Some? && IsName(options.operationType.value)
    && options.operationName.Some? && IsName(options.operationName.value)
    && IsName(RootName(model, options))
    && (options.rootFieldAlias.None? || IsName(options.rootFieldAlias.value))
    && (options.rootFieldQuery.Some? ==>
          forall i :: 0 <= i < |options.rootFieldQuery.value| ==>
            WfArgument(Argument(options.rootFieldQuery.value[i].0, options.rootFieldQuery.value[i].1)))
    && (forall i :: 0 <= i < |model.attributes| ==> IsName(model.attributes[i]))
    && (forall i :: 0 <= i < |model.relationships| ==> IsName(model.relationships[i]))
    && (forall k :: k in registry ==> forall i :: 0 <= i < |registry[k].attributes| ==> IsName(registry[k].attributes[i]))
  }

  lemma IdIsName()
    ensures IsName("id")
  {
    assert forall i :: 0 <= i < 2 ==> IsNameChar("id"[i]);
  }

  lemma LeafWellFormed(name: string)
    requires IsName(name)
    ensures WfField(Leaf(name))
  {
  }

  lemma RelationshipFieldWellFormed(key: string, related: ModelDescription)
    requires IsName(key)
    requires forall i :: 0 <= i < |related.attributes| ==> IsName(related.attributes[i])
    ensures WfField(RelationshipField(key, related))
  {
    var f := RelationshipField(key, related);
    IdIsName();
    forall j | 0 <= j < |f.selection| ensures WfField(f.selection[j]) {
      if j == 0 {
        LeafWellFormed("id");
      } else {
        LeafWellFormed(related.attributes[j - 1]);
      }
    }
  }

  /** Every planned field is well formed when all names involved are. */
  lemma PlannedWellFormed(model: ModelDescription, registry: Registry, added: seq<Field>)
    requires Planned(model, registry, added)
    requires forall i :: 0 <= i < |model.attributes| ==> IsName(model.attributes[i])
    requires forall i :: 0 <= i < |model.relationships| ==> IsName(model.relationships[i])
    requires forall k :: k in registry ==> forall i :: 0 <= i < |registry[k].attributes| ==> IsName(registry[k].attributes[i])
    ensures forall i :: 0 <= i < |added| ==> WfField(added[i])
  {
    forall i | 0 <= i < |added| ensures WfField(added[i]) {
      if i == 0 {
        IdIsName();
        LeafWellFormed("id");
      } else if i <= |model.attributes| {
        LeafWellFormed(model.attributes[i - 1]);
      } else {
        var k := model.relationships[i - 1 - |model.attributes|];
        RelationshipFieldWellFormed(k, registry[k]);
      }
    }
  }

  /** With well-formed inputs, the planned tree is one the decoder reads back. */
  lemma CompiledTreeWellFormed(model: ModelDescription, registry: Registry, options: CompileOptions)
    requires WellFormedInputs(model, registry, options)
    requires CompileTree(model, registry, Some(options)).Success?
    ensures WfOperation(CompileTree(model, registry, Some(options)).value)
  {
    var op := CompileTree(model, registry, Some(options)).value;
    var root := op.selection[0];
    PlannedWellFormed(model, registry, root.selection);
    assert WfArguments(root.arguments);
    assert WfField(root);
  }

  /** The compiled text reads back as the planned tree: one root field with
      the requested name, alias and arguments, selecting `id`, the
      attributes and the relationships in order. */
  lemma CompileDecodes(model: ModelDescription, registry: Registry, options: CompileOptions)
    requires WellFormedInputs(model, registry, options)
    requires Resolvable(model, registry)
    ensures Compile(model, registry, Some(options)).Success?
    ensures ReadOperation(Compile(model, registry, Some(options)).value) == Some(CompileTree(model, registry, Some(options)).value)
  {
    CompiledTreeWellFormed(model, registry, options);
    OperationRoundTrip(CompileTree(model, registry, Some(options)).value);
  }

  /** The planned tree of the worked example: model `post` with attribute
      `name` and the query `{id: "1"}`. */
  lemma PostTree()
    ensures CompileTree(ModelDescription("post", ["name"], []), map[], Some(PostOptions()))
         == Success(Operation(Some("query"), Some("post"), [],
                      [Field("post", None, [Argument("id", Str("1"))], [Leaf("id"), Leaf("name")])]))
  {
    var op := CompileTree(ModelDescription("post", ["name"], []), map[], Some(PostOptions())).value;
    var root := op.selection[0];
    assert root.arguments == [Argument("id", Str("1"))];
    assert root.selection == [Leaf("id"), Leaf("name")];
  }

  function PostOptions(): (o: CompileOptions) {
    NoOptions.(operationType := Some("query"), operationName := Some("post"), rootFieldQuery := Some([("id", Str("1"))]))
  }

  /** The root field of the worked example renders with one leading space,
      a space after the argument list and two spaces between the leaves. */
  lemma PostRootText()
    ensures GenerateField(Field("post", None, [Argument("id", Str("1"))], [Leaf("id"), Leaf("name")]))
         == " post(id: \"1\") { id  name } "
  {
    var a := Argument("id", Str("1"));
    var root := Field("post", None, [a], [Leaf("id"), Leaf("name")]);
    var argumentText := ArgumentText(a);
    assert argumentText == "id: \"1\"";
    assert ArgumentTexts([a]) == [argumentText];
    var argumentsText := GenerateArgumentSet([a]);
    assert argumentsText == "(" + argumentText + ")";
    LeafText("id");
    LeafText("name");
    FieldsCons(root.selection);
    FieldsCons([Leaf("name")]);
    assert root.selection[1..] == [Leaf("name")] && [Leaf("name")][1..] == [];
    var inner := GenerateFields(root.selection);
    assert inner == " id " + " name ";
    var selectionText := GenerateSelectionSet(root.selection);
    assert selectionText == "{" + inner + "}" + " ";
    FieldParts(root, "", argumentsText, selectionText);
    PostRootLiteral(GenerateField(root), argumentsText, inner, selectionText);
  }

  lemma PostRootLiteral(text: string, arguments: string, inner: string, selection: string)
    requires arguments == "(id: \"1\")" && inner == " id " + " name " && selection == "{" + inner + "}" + " "
    requires text == " " + "" + "post" + arguments + " " + selection
    ensures text == " post(id: \"1\") { id  name } "
  {
  }

  /** The worked example compiles to exactly
      `query post { post(id: "1") { id  name } } `: the root field's text
      between the operation's braces. */
  lemma PostExample()
    ensures Compile(ModelDescription("post", ["name"], []), map[], Some(PostOptions()))
         == Success("query post {" + " post(id: \"1\") { id  name } " + "} ")
  {
    PostTree();
    var root := Field("post", None, [Argument("id", Str("1"))], [Leaf("id"), Leaf("name")]);
    var op := Operation(Some("query"), Some("post"), [], [root]);
    PostRootText();
    var rootText := GenerateField(root);
    var opField := OperationField(op);
    FieldsCons([root]);
    assert [root][1..] == [];
    var selectionText := GenerateSelectionSet([root]);
    assert selectionText == "{" + rootText + "}" + " ";
    FieldParts(opField, "", "", selectionText);
    assert Generate(op) == "query" + GenerateField(opField);
    PostLiteral(Generate(op), GenerateField(opField), rootText, selectionText);
  }

  lemma PostLiteral(text: string, field: string, rootText: string, selection: string)
    requires rootText == " post(id: \"1\") { id  name } " && selection == "{" + rootText + "}" + " "
    requires field == " " + "" + "post" + "" + " " + selection && text == "query" + field
    ensures text == "query post {" + " post(id: \"1\") { id  name } " + "} "
  {
  }
}

=== FILE: generator.dfy ===
/** The renderer (addon/generator.js): a deterministic concatenation of
    tokens over the query tree. Every field is rendered with a leading
    separator, and a separator follows every field name (or argument list)
    and every closing brace, so `{ id  name } ` is the shape of a selection
    of two leaves. */
module Generator {
  import opened Wrappers
  import opened Text
  import opened Types

  const OpeningToken: string := "{"
  const ClosingToken: string := "}"
  const AliasSeparatorToken: string := ": "
  const ArgumentSetOpeningToken: string := "("
  const ArgumentSetClosingToken: string := ")"
  const ArgumentKeyValueSeparateToken: string := ": "
  const ArgumentStringWrapperToken: string := "\""
  const ArgumentSeparatorToken: string := ", "
  const SeparatorToken: string := " "
  const EmptyToken: string := ""

  /** JavaScript string conversion of an optional string: `undefined` when
      absent. */
  function JsText(s: Option<string>): (r: string)
    ensures s.Some? ==> r == s.value
    ensures s.None? ==> r == "undefined"
  {
    match s
    case Some(t) => t
    case None => "undefined"
  }

  /** JavaScript truthiness of an optional string: present and non-empty. */
  predicate Truthy(s: Option<string>) {
    s.Some? && s.value != ""
  }

  /** A string is wrapped in double quotes verbatim, with no escaping; any
      other value is written in its JavaScript textual form. */
  function ValueText(v: Value): (r: string)
    ensures v.Str? ==> r == ArgumentStringWrapperToken + v.s + ArgumentStringWrapperToken
    ensures v.Int? ==> r == IntToString(v.i)
    ensures v.Bool? ==> r == (if v.b then "true" else "false")
    ensures v.Null? ==> r == "null"
  {
    match v
    case Str(s) => ArgumentStringWrapperToken + s + ArgumentStringWrapperToken
    case Int(i) => IntToString(i)
    case Bool(b) => if b then "true" else "false"
    case Null => "null"
  }

  /** A JavaScript number is written in exponent notation from `10^21` up;
      every safe integer has at most 16 digits, so its text is the plain
      decimal numeral. */
  lemma SafeIntPlain(n: SafeInt)
    ensures var text := ValueText(Int(n));
      && |NatToString(if n < 0 then -n else n)| <= 16
      && text == (if n < 0 then "-" else "") + NatToString(if n < 0 then -n else n)
  {
    assert Pow10(16) == 10000000000000000 by {
      assert Pow10(4) == 10000;
      assert Pow10(8) == 100000000;
      assert Pow10(12) == 1000000000000;
    }
    NatToStringLength(if n < 0 then -n else n, 16);
  }

  function ArgumentText(a: Argument): (r: string) {
    a.name + ArgumentKeyValueSeparateToken + ValueText(a.value)
  }

  /** The texts of the arguments, in set order. */
  function ArgumentTexts(arguments: seq<Argument>): (r: seq<string>)
    ensures |r| == |arguments|
    ensures forall i :: 0 <= i < |arguments| ==> r[i] == ArgumentText(arguments[i])
  {
    if |arguments| == 0 then [] else [ArgumentText(arguments[0])] + ArgumentTexts(arguments[1..])
  }

  /** `generateArgumentSet`: the arguments in set order, separated by `", "`,
      between parentheses. */
  function GenerateArgumentSet(arguments: seq<Argument>): (r: string) {
    ArgumentSetOpeningToken + Join(ArgumentTexts(arguments), ArgumentSeparatorToken) + ArgumentSetClosingToken
  }

  /** `alias: ` when the alias is truthy, nothing otherwise. */
  function AliasPart(alias: Option<string>): (r: string) {
    if Truthy(alias) then alias.value + AliasSeparatorToken else EmptyToken
  }

  /** The argument list when there are arguments, nothing otherwise. */
  function ArgumentsPart(arguments: seq<Argument>): (r: string) {
    if |arguments| > 0 then GenerateArgumentSet(arguments) else EmptyToken
  }

  /** `generateField`: separator, alias part, name, arguments part,
      separator, then the selection set when there is one. */
  function GenerateField(f: Field): (r: string)
    decreases f, 0
  {
    SeparatorToken + AliasPart(f.alias) + f.name + ArgumentsPart(f.arguments) + SeparatorToken
      + (if |f.selection| > 0 then GenerateSelectionSet(f.selection) else EmptyToken)
  }

  /** The five parts of a field's text, in order. */
  lemma FieldShape(f: Field)
    ensures GenerateField(f) == SeparatorToken + AliasPart(f.alias) + f.name + ArgumentsPart(f.arguments) + SeparatorToken
      + (if |f.selection| > 0 then GenerateSelectionSet(f.selection) else EmptyToken)
  {
  }

  /** A field's text from the texts of its parts. */
  lemma FieldParts(f: Field, alias: string, arguments: string, selection: string)
    requires AliasPart(f.alias) == alias && ArgumentsPart(f.arguments) == arguments
    requires (if |f.selection| > 0 then GenerateSelectionSet(f.selection) else EmptyToken) == selection
    ensures GenerateField(f) == " " + alias + f.name + arguments + " " + selection
  {
    FieldShape(f);
  }

  /** `generateSelectionSet`: the children's renderings in order between
      braces, followed by a separator. */
  function GenerateSelectionSet(fields: seq<Field>): (r: string)
    decreases fields, 1
  {
    OpeningToken + GenerateFields(fields) + ClosingToken + SeparatorToken
  }

  /** The concatenation of the renderings of `fields`, in order. */
  function GenerateFields(fields: seq<Field>): (r: string)
    ensures |fields| > 0 ==> |r| > 0 && r[0] == ' '
    decreases fields, 0
  {
    if |fields| == 0 then EmptyToken
    else GenerateField(fields[0]) + GenerateFields(fields[1..])
  }

  /** The operation viewed as a field: it has a name, arguments and a
      selection but no alias. */
  function OperationField(op: Operation): (f: Field) {
    Field(JsText(op.name), None, op.arguments, op.selection)
  }

  /** Without a truthy alias, a field's text starts with a separator and
      its name. */
  lemma UnaliasedPrefix(f: Field)
    requires !Truthy(f.alias)
    ensures HasPrefix(GenerateField(f), SeparatorToken + f.name)
  {
    var sel := if |f.selection| > 0 then GenerateSelectionSet(f.selection) else EmptyToken;
    FieldShape(f);
    ConcatDropEmpty(SeparatorToken, AliasPart(f.alias), f.name, ArgumentsPart(f.arguments), SeparatorToken, sel);
    PrefixOfConcat(SeparatorToken + f.name, ArgumentsPart(f.arguments) + SeparatorToken + sel);
  }

  /** `generate`/`openOperation`: the operation type followed by the
      operation rendered as a field, so the text starts with the type, a
      space and the operation name. */
  function Generate(op: Operation): (r: string)
    ensures HasPrefix(r, JsText(op.opType) + " " + JsText(op.name))
  {
    var t := JsText(op.opType);
    var f := OperationField(op);
    var text := GenerateField(f);
    UnaliasedPrefix(f);
    PrefixExtend(t, text, SeparatorToken + f.name);
    assert t + (SeparatorToken + f.name) == t + " " + JsText(op.name);
    t + text
  }
}

=== FILE: generator_laws.dfy ===
/** Laws of the renderer (addon/generator.js) stated against independent
    descriptions of the tree: the shape of a leaf, the effect of an alias,
    the order of children, and a count of the delimiters `{ } ( )` that
    equals the number of fields with a selection or with arguments. */
module GeneratorLaws {
  import opened Wrappers
  import opened Text
  import opened Types
  import opened Generator

  /** A leaf with no alias renders as its name between two separators. */
  lemma LeafText(name: string)
    ensures GenerateField(Leaf(name)) == " " + name + " "
  {
    FieldShape(Leaf(name));
  }

  /** A truthy alias is written before the name, followed by `": "`; a
      missing or empty alias renders exactly like no alias at all. */
  lemma AliasText(f: Field)
    ensures Truthy(f.alias) ==> HasPrefix(GenerateField(f), " " + f.alias.value + ": " + f.name)
    ensures !Truthy(f.alias) ==> GenerateField(f) == GenerateField(f.(alias := None))
  {
    var sel := if |f.selection| > 0 then GenerateSelectionSet(f.selection) else EmptyToken;
    var arguments := ArgumentsPart(f.arguments);
    if Truthy(f.alias) {
      FieldParts(f, f.alias.value + ": ", arguments, sel);
      AliasedPrefix(f.alias.value, f.name, arguments + " " + sel);
    } else {
      FieldParts(f, "", arguments, sel);
      FieldParts(f.(alias := None), "", arguments, sel);
    }
  }

  /** The alias, its separator and the name start the aliased text. */
  lemma AliasedPrefix(alias: string, name: string, tail: string)
    ensures HasPrefix(" " + (alias + ": ") + name + tail, " " + alias + ": " + name)
  {
    var head := " " + alias + ": " + name;
    assert " " + (alias + ": ") + name + tail == head + tail;
    PrefixOfConcat(head, tail);
  }

  /** Rendering a concatenation of sibling lists is the concatenation of
      their renderings: children are neither reordered nor merged. */
  lemma {:induction false} FieldsConcat(a: seq<Field>, b: seq<Field>)
    ensures GenerateFields(a + b) == GenerateFields(a) + GenerateFields(b)
    decreases |a|
  {
    if |a| == 0 {
      assert a + b == b;
    } else {
      assert (a + b)[0] == a[0];
      assert (a + b)[1..] == a[1..] + b;
      FieldsConcat(a[1..], b);
    }
  }

  /** The rendering of a list of fields is the rendering of its first field
      followed by the rendering of the rest. */
  lemma FieldsCons(fields: seq<Field>)
    requires |fields| > 0
    ensures GenerateFields(fields) == GenerateField(fields[0]) + GenerateFields(fields[1..])
  {
  }

  /** Rendering one more child appends that child's text inside the braces. */
  lemma SelectionPush(fields: seq<Field>, g: Field)
    ensures GenerateSelectionSet(Push(fields, g)) == "{" + GenerateFields(fields) + GenerateField(g) + "} "
  {
    var pushed := Push(fields, g);
    FieldsConcat(fields, [g]);
    assert [g][1..] == [];
    assert GenerateFields([g]) == GenerateField(g) + GenerateFields([]);
    Braced(GenerateFields(pushed), GenerateFields(fields), GenerateField(g));
  }

  /** Bracing a concatenation, regrouped. */
  lemma Braced(inner: string, a: string, b: string)
    requires inner == a + (b + "")
    ensures OpeningToken + inner + ClosingToken + SeparatorToken == "{" + a + b + "} "
  {
  }

  /** The characters counted: the two brace kinds and the two parentheses. */
  predicate IsDelimiter(c: char) {
    c == '{' || c == '}' || c == '(' || c == ')'
  }

  /** No occurrence of `c` in `s`. */
  predicate Lacks(s: string, c: char) {
    forall i :: 0 <= i < |s| ==> s[i] != c
  }

  predicate ValueLacks(v: Value, c: char) {
    v.Str? ==> Lacks(v.s, c)
  }

  predicate ArgumentsLack(arguments: seq<Argument>, c: char) {
    forall i :: 0 <= i < |arguments| ==> Lacks(arguments[i].name, c) && ValueLacks(arguments[i].value, c)
  }

  /** No name, alias or string value anywhere in the tree contains `c`. */
  predicate FieldLacks(f: Field, c: char) {
    && Lacks(f.name, c)
    && (f.alias.Some? ==> Lacks(f.alias.value, c))
    && ArgumentsLack(f.arguments, c)
    && forall i :: 0 <= i < |f.selection| ==> FieldLacks(f.selection[i], c)
  }

  /** The tree feature a delimiter marks: braces enclose a selection,
      parentheses an argument list. */
  predicate Marks(c: char, f: Field) {
    if c == '{' || c == '}' then |f.selection| > 0 else |f.arguments| > 0
  }

  /** Number of fields in the tree rooted at `f` (itself included) that the
      delimiter `c` marks. */
  function Marked(f: Field, c: char): (n: nat)
    decreases f, 0
  {
    (if Marks(c, f) then 1 else 0) + MarkedAll(f.selection, c)
  }

  function MarkedAll(fields: seq<Field>, c: char): (n: nat)
    decreases fields, 1
  {
    if |fields| == 0 then 0 else Marked(fields[0], c) + MarkedAll(fields[1..], c)
  }

  lemma LacksConcat(a: string, b: string, c: char)
    requires Lacks(a, c) && Lacks(b, c)
    ensures Lacks(a + b, c)
  {
  }

  lemma ValueTextLacks(v: Value, c: char)
    requires IsDelimiter(c) && ValueLacks(v, c)
    ensures Lacks(ValueText(v), c)
  {
    match v
    case Str(s) =>
      LacksConcat("\"", s, c);
      LacksConcat("\"" + s, "\"", c);
    case Int(n) =>
      var t := IntToString(n);
      assert forall i :: 0 <= i < |t| ==> t[i] == '-' || IsDigit(t[i]);
    case Bool(b) =>
    case Null =>
  }

  lemma {:induction false} JoinLacks(arguments: seq<Argument>, c: char)
    requires IsDelimiter(c) && ArgumentsLack(arguments, c)
    ensures Lacks(Join(ArgumentTexts(arguments), ArgumentSeparatorToken), c)
    decreases |arguments|
  {
    if |arguments| > 0 {
      var a := arguments[0];
      ValueTextLacks(a.value, c);
      LacksConcat(a.name, ArgumentKeyValueSeparateToken, c);
      LacksConcat(a.name + ArgumentKeyValueSeparateToken, ValueText(a.value), c);
      var texts := ArgumentTexts(arguments);
      if |arguments| > 1 {
        assert texts[1..] == ArgumentTexts(arguments[1..]);
        JoinCons(texts, ArgumentSeparatorToken);
        JoinLacks(arguments[1..], c);
        LacksConcat(ArgumentText(a), ArgumentSeparatorToken, c);
        LacksConcat(ArgumentText(a) + ArgumentSeparatorToken, Join(texts[1..], ArgumentSeparatorToken), c);
      }
    }
  }

  /** An argument list holds one `(` and one `)` and no brace. */
  lemma ArgumentsPartCount(arguments: seq<Argument>, c: char)
    requires IsDelimiter(c) && ArgumentsLack(arguments, c)
    ensures CountChar(ArgumentsPart(arguments), c) == (if (c == '(' || c == ')') && |arguments| > 0 then 1 else 0)
  {
    if |arguments| > 0 {
      var inner := Join(ArgumentTexts(arguments), ArgumentSeparatorToken);
      JoinLacks(arguments, c);
      CountAbsent(inner, c);
      CountConcat(ArgumentSetOpeningToken, inner, c);
      CountConcat(ArgumentSetOpeningToken + inner, ArgumentSetClosingToken, c);
    }
  }

  /** The part of a field's text before its argument list holds no
      delimiter. */
  lemma HeadCount(f: Field, c: char)
    requires IsDelimiter(c) && Lacks(f.name, c) && (f.alias.Some? ==> Lacks(f.alias.value, c))
    ensures CountChar(SeparatorToken + AliasPart(f.alias) + f.name, c) == 0
  {
    if Truthy(f.alias) {
      LacksConcat(f.alias.value, AliasSeparatorToken, c);
    }
    LacksConcat(SeparatorToken, AliasPart(f.alias), c);
    LacksConcat(SeparatorToken + AliasPart(f.alias), f.name, c);
    CountAbsent(SeparatorToken + AliasPart(f.alias) + f.name, c);
  }

  /** Every delimiter in a field's text belongs to a field it marks. */
  lemma {:induction false} FieldCount(f: Field, c: char)
    requires IsDelimiter(c) && FieldLacks(f, c)
    ensures CountChar(GenerateField(f), c) == Marked(f, c)
    decreases f, 0
  {
    var head := SeparatorToken + AliasPart(f.alias) + f.name;
    var args := ArgumentsPart(f.arguments);
    var sel := if |f.selection| > 0 then GenerateSelectionSet(f.selection) else EmptyToken;
    FieldShape(f);
    HeadCount(f, c);
    ArgumentsPartCount(f.arguments, c);
    SelectionCount(f.selection, c);
    CountConcat(head, args, c);
    CountConcat(head + args, SeparatorToken, c);
    CountConcat(head + args + SeparatorToken, sel, c);
  }

  lemma {:induction false} SelectionCount(fields: seq<Field>, c: char)
    requires IsDelimiter(c)
    requires forall i :: 0 <= i < |fields| ==> FieldLacks(fields[i], c)
    ensures CountChar(if |fields| > 0 then GenerateSelectionSet(fields) else EmptyToken, c)
         == (if (c == '{' || c == '}') && |fields| > 0 then 1 else 0) + MarkedAll(fields, c)
    decreases fields, 2
  {
    FieldsCount(fields, c);
    if |fields| > 0 {
      var inner := GenerateFields(fields);
      CountConcat(OpeningToken, inner, c);
      CountConcat(OpeningToken + inner, ClosingToken, c);
      CountConcat(OpeningToken + inner + ClosingToken, SeparatorToken, c);
    } else {
      assert MarkedAll(fields, c) == 0;
    }
  }

  lemma {:induction false} FieldsCount(fields: seq<Field>, c: char)
    requires IsDelimiter(c)
    requires forall i :: 0 <= i < |fields| ==> FieldLacks(fields[i], c)
    ensures CountChar(GenerateFields(fields), c) == MarkedAll(fields, c)
    decreases fields, 1
  {
    if |fields| > 0 {
      FieldCount(fields[0], c);
      FieldsCount(fields[1..], c);
      CountConcat(GenerateField(fields[0]), GenerateFields(fields[1..]), c);
    }
  }

  /** Braces and parentheses come in balanced numbers: one `{ }` pair per
      field with a selection and one `( )` pair per field with arguments. */
  lemma DelimitersBalanced(f: Field)
    requires FieldLacks(f, '{') && FieldLacks(f, '}') && FieldLacks(f, '(') && FieldLacks(f, ')')
    ensures CountChar(GenerateField(f), '{') == CountChar(GenerateField(f), '}') == Marked(f, '{')
    ensures CountChar(GenerateField(f), '(') == CountChar(GenerateField(f), ')') == Marked(f, '(')
  {
    FieldCount(f, '{');
    FieldCount(f, '}');
    FieldCount(f, '(');
    FieldCount(f, ')');
    MarkedSame(f, '{', '}');
    MarkedSame(f, '(', ')');
  }

  /** The two characters of a pair mark the same fields. */
  lemma {:induction false} MarkedSame(f: Field, c: char, d: char)
    requires (c == '{' || c == '}') == (d == '{' || d == '}')
    ensures Marked(f, c) == Marked(f, d)
    decreases f, 0
  {
    MarkedAllSame(f.selection, c, d);
  }

  lemma {:induction false} MarkedAllSame(fields: seq<Field>, c: char, d: char)
    requires (c == '{' || c == '}') == (d == '{' || d == '}')
    ensures MarkedAll(fields, c) == MarkedAll(fields, d)
    decreases fields, 1
  {
    if |fields| > 0 {
      MarkedSame(fields[0], c, d);
      MarkedAllSame(fields[1..], c, d);
    }
  }

  /** String values are not escaped, so a value holding `", ` and a double
      quote renders exactly like two separate arguments. */
  lemma QuoteCollision()
    ensures GenerateArgumentSet([Argument("x", Str("a\", b: \"c"))])
         == GenerateArgumentSet([Argument("x", Str("a")), Argument("b", Str("c"))])
  {
    var one := [Argument("x", Str("a\", b: \"c"))];
    var two := [Argument("x", Str("a")), Argument("b", Str("c"))];
    var t1 := ArgumentText(one[0]);
    var ta := ArgumentText(two[0]);
    var tb := ArgumentText(two[1]);
    assert t1 == "x: \"a\", b: \"c\"";
    assert ta == "x: \"a\"";
    assert tb == "b: \"c\"";
    var texts := ArgumentTexts(two);
    assert texts[1..] == [tb];
    JoinCons(texts, ArgumentSeparatorToken);
    assert Join(texts, ArgumentSeparatorToken) == ta + ", " + tb;
    assert Join(ArgumentTexts(one), ArgumentSeparatorToken) == t1;
  }

  /** The selection part of the generator's reference query: two leaves and
      an object field with two leaves of its own, each field followed by a
      space, so neighbouring leaves are two spaces apart. */
  lemma SelectionShape()
    ensures GenerateSelectionSet([Leaf("id"), Leaf("status"), Field("author", None, [], [Leaf("id"), Leaf("username")])])
         == "{" + " id " + " status " + " author " + "{" + " id " + " username " + "} " + "} "
  {
    var author := Field("author", None, [], [Leaf("id"), Leaf("username")]);
    var fields := [Leaf("id"), Leaf("status"), author];
    LeafLiteral("id", " id ");
    LeafLiteral("status", " status ");
    var authorInner := " id " + (" username " + "");
    var authorSelection := OpeningToken + authorInner + ClosingToken + SeparatorToken;
    AuthorShape();
    var authorText := GenerateField(author);
    FieldsCons(fields);
    FieldsCons(fields[1..]);
    FieldsCons(fields[2..]);
    assert fields[1..][1..] == fields[2..] && fields[2..][1..] == [] && fields[2..][0] == author;
    var inner := GenerateFields(fields);
    assert inner == " id " + (" status " + (authorText + ""));
    ShapeRegroup(GenerateSelectionSet(fields), inner, authorText, authorSelection, authorInner,
                 " id ", " status ", " author ", " id ", " username ");
  }

  /** The object field of the reference selection: its name, then its two
      leaves between braces. */
  lemma AuthorShape()
    ensures GenerateField(Field("author", None, [], [Leaf("id"), Leaf("username")]))
         == " author " + (OpeningToken + (" id " + (" username " + "")) + ClosingToken + SeparatorToken)
  {
    var author := Field("author", None, [], [Leaf("id"), Leaf("username")]);
    TwoLeaves("id", "username", " id ", " username ");
    FieldParts(author, "", "", GenerateSelectionSet(author.selection));
  }

  /** Two leaves render one after the other. */
  lemma TwoLeaves(a: string, b: string, aText: string, bText: string)
    requires aText == " " + a + " " && bText == " " + b + " "
    ensures GenerateFields([Leaf(a), Leaf(b)]) == aText + (bText + "")
  {
    var leaves := [Leaf(a), Leaf(b)];
    LeafLiteral(a, aText);
    LeafLiteral(b, bText);
    FieldsCons(leaves);
    FieldsCons(leaves[1..]);
    assert leaves[1..][0] == Leaf(b) && leaves[1..][1..] == [];
  }

  /** A leaf renders as the given literal text. */
  lemma LeafLiteral(name: string, text: string)
    requires text == " " + name + " "
    ensures GenerateField(Leaf(name)) == text
  {
    LeafText(name);
  }

  /** The nesting of the reference selection, flattened. */
  lemma ShapeRegroup(text: string, inner: string, authorText: string, authorSelection: string, authorInner: string,
                     id: string, status: string, authorName: string, innerId: string, username: string)
    requires authorInner == innerId + (username + "")
    requires authorSelection == OpeningToken + authorInner + ClosingToken + SeparatorToken
    requires authorText == authorName + authorSelection
    requires inner == id + (status + (authorText + ""))
    requires text == OpeningToken + inner + ClosingToken + SeparatorToken
    ensures text == "{" + id + status + authorName + "{" + innerId + username + "} " + "} "
  {
  }
}

=== FILE: parser.dfy ===
/** The planner (addon/parser.js): extends the root field's selection with
    `id`, one leaf per model attribute and one sub-field per relationship,
    then appends the root field to the operation's selection. The related
    models are looked up by relationship key, and only their attributes are
    requested, so the planned tree is at most two levels deep whatever the
    registry holds (self-referential models included). */
module Parser {
  import opened Wrappers
  import opened Types

  /** What the planner reads from a model class: its name, its attribute
      names and its relationship keys, each in enumeration order. */
  datatype ModelDescription = ModelDescription(modelName: string, attributes: seq<string>, relationships: seq<string>)

  /** `store.modelFor`: the model class registered under a key. */
  type Registry = map<string, ModelDescription>

  /** A relationship key with no registered model; the source dereferences
      the missing model and throws. */
  datatype ParseError = MissingModel(key: string)

  /** One `push(new Field(attr))` per name, in order, after `fields`. */
  function PushLeaves(fields: seq<Field>, names: seq<string>): (r: seq<Field>)
    ensures |r| == |fields| + |names|
    ensures r[..|fields|] == fields
    ensures forall i :: 0 <= i < |names| ==> r[|fields| + i] == Leaf(names[i])
  {
    if |names| == 0 then fields
    else Push(PushLeaves(fields, names[..|names| - 1]), Leaf(names[|names| - 1]))
  }

  /** The field for one relationship: named by the key, no alias, no
      arguments, and a selection of `id` followed by the related model's
      attributes. */
  function RelationshipField(key: string, related: ModelDescription): (f: Field)
    ensures f.name == key && f.alias.None? && f.arguments == []
    ensures |f.selection| == 1 + |related.attributes|
    ensures f.selection[0] == Leaf("id")
    ensures forall i :: 0 <= i < |related.attributes| ==> f.selection[1 + i] == Leaf(related.attributes[i])
  {
    var field := NewField(key, None, Some(NewSet([])), Some(NewSet([Leaf("id")])));
    field.(selection := PushLeaves(field.selection, related.attributes))
  }

  /** Every key has a registered model. */
  predicate AllRegistered(keys: seq<string>, registry: Registry) {
    forall i :: 0 <= i < |keys| ==> keys[i] in registry
  }

  /** The relationship fields, one per key in order; fails on the first key
      the registry does not hold. */
  function RelationshipFields(keys: seq<string>, registry: Registry): (r: Result<seq<Field>, ParseError>)
    ensures r.Success? <==> AllRegistered(keys, registry)
    ensures r.Failure? ==> exists i :: 0 <= i < |keys| && keys[i] == r.error.key && keys[i] !in registry
                                         && forall j :: 0 <= j < i ==> keys[j] in registry
    ensures r.Success? ==> |r.value| == |keys|
    decreases |keys|
  {
    if |keys| == 0 then Success([])
    else if keys[0] !in registry then Failure(MissingModel(keys[0]))
    else
      var rest := RelationshipFields(keys[1..], registry);
      assert forall i :: 0 < i < |keys| ==> keys[i] == keys[1..][i - 1];
      match rest
      case Failure(e) => Failure(e)
      case Success(more) => Success([RelationshipField(keys[0], registry[keys[0]])] + more)
  }

  /** Field `i` of a successful result is the one for key `i`. */
  lemma {:induction false} RelationshipFieldAt(keys: seq<string>, registry: Registry, i: nat)
    requires AllRegistered(keys, registry) && i < |keys|
    ensures RelationshipFields(keys, registry).value[i] == RelationshipField(keys[i], registry[keys[i]])
    decreases i
  {
    var fields := RelationshipFields(keys, registry).value;
    var more := RelationshipFields(keys[1..], registry);
    assert AllRegistered(keys[1..], registry) by {
      assert forall j :: 0 <= j < |keys| - 1 ==> keys[1..][j] == keys[j + 1];
    }
    assert fields == [RelationshipField(keys[0], registry[keys[0]])] + more.value;
    if i > 0 {
      RelationshipFieldAt(keys[1..], registry, i - 1);
      assert fields[i] == more.value[i - 1];
    }
  }

  /** Every field of a successful result is the one for its key. */
  lemma RelationshipFieldsAll(keys: seq<string>, registry: Registry)
    requires AllRegistered(keys, registry)
    ensures RelationshipsPlanned(keys, registry, RelationshipFields(keys, registry).value)
  {
    forall i | 0 <= i < |keys| ensures RelationshipFields(keys, registry).value[i] == RelationshipField(keys[i], registry[keys[i]]) {
      RelationshipFieldAt(keys, registry, i);
    }
  }

  /** The fields `parse` appends to the root field's selection, stated per
      position: `id`, the attributes, then the relationships. */
  predicate Planned(model: ModelDescription, registry: Registry, added: seq<Field>) {
    var attributes := model.attributes;
    var keys := model.relationships;
    && |added| == 1 + |attributes| + |keys|
    && added[0] == Leaf("id")
    && (forall i :: 0 <= i < |attributes| ==> added[1 + i] == Leaf(attributes[i]))
    && RelationshipsPlanned(keys, registry, added[1 + |attributes|..])
  }

  /** One relationship field per key, in order, each for the model the
      registry holds under that key. */
  predicate RelationshipsPlanned(keys: seq<string>, registry: Registry, fields: seq<Field>) {
    && |fields| == |keys|
    && forall i :: 0 <= i < |keys| ==> keys[i] in registry && fields[i] == RelationshipField(keys[i], registry[keys[i]])
  }

  /** Every relationship key of the model has a registered model. */
  predicate Resolvable(model: ModelDescription, registry: Registry) {
    AllRegistered(model.relationships, registry)
  }

  /** `Parser.parse`: the operation with `root`, extended by the planned
      fields, appended to its selection. */
  function Parse(model: ModelDescription, registry: Registry, operation: Operation, root: Field): (r: Result<Operation, ParseError>)
    ensures r.Success? <==> Resolvable(model, registry)
    ensures r.Failure? ==> r.error.key in model.relationships && r.error.key !in registry
    ensures r.Success? ==> && r.value.opType == operation.opType && r.value.name == operation.name
                           && r.value.arguments == operation.arguments
                           && |r.value.selection| == |operation.selection| + 1
                           && r.value.selection[..|operation.selection|] == operation.selection
    ensures r.Success? ==>
      var planned := r.value.selection[|operation.selection|];
      && planned.name == root.name && planned.alias == root.alias && planned.arguments == root.arguments
      && |planned.selection| == |root.selection| + 1 + |model.attributes| + |model.relationships|
      && planned.selection[..|root.selection|] == root.selection
      && Planned(model, registry, planned.selection[|root.selection|..])
  {
    var withId := Push(root.selection, Leaf("id"));
    var withAttributes := PushLeaves(withId, model.attributes);
    match RelationshipFields(model.relationships, registry)
    case Failure(e) => Failure(e)
    case Success(relationships) =>
      var n := |root.selection|;
      RelationshipFieldsAll(model.relationships, registry);
      FrontAfterLeaves(root.selection, withId, withAttributes);
      PlannedSuffix(model, registry, n, withAttributes, relationships);
      var planned := root.(selection := withAttributes + relationships);
      Success(operation.(selection := Push(operation.selection, planned)))
  }

  /** The selection after pushing `id` and then the attribute leaves keeps
      the old fields in front, then `id`. */
  lemma FrontAfterLeaves(fields: seq<Field>, withId: seq<Field>, withAttributes: seq<Field>)
    requires |withId| == |fields| + 1 && withId[..|fields|] == fields && withId[|fields|] == Leaf("id")
    requires |withAttributes| >= |withId| && withAttributes[..|withId|] == withId
    ensures withAttributes[..|fields|] == fields && withAttributes[|fields|] == Leaf("id")
  {
    var k := |fields|;
    forall i | 0 <= i <= k ensures withAttributes[i] == withId[i] {
      assert withAttributes[..k + 1][i] == withId[i];
    }
    forall i | 0 <= i < k ensures withAttributes[i] == fields[i] {
      assert withId[..k][i] == fields[i];
    }
    assert withAttributes[..k] == fields;
  }

  /** The fields after the first `n` are the planned ones, given how the
      three pushes built the selection. */
  lemma PlannedSuffix(model: ModelDescription, registry: Registry, n: nat, withAttributes: seq<Field>, relationships: seq<Field>)
    requires |withAttributes| == n + 1 + |model.attributes|
    requires withAttributes[n] == Leaf("id")
    requires forall i :: 0 <= i < |model.attributes| ==> withAttributes[n + 1 + i] == Leaf(model.attributes[i])
    requires RelationshipsPlanned(model.relationships, registry, relationships)
    ensures (withAttributes + relationships)[..n] == withAttributes[..n]
    ensures Planned(model, registry, (withAttributes + relationships)[n..])
  {
    var selection := withAttributes + relationships;
    var added := selection[n..];
    var attributes := model.attributes;
    var keys := model.relationships;
    assert selection[..n] == withAttributes[..n];
    assert added[0] == withAttributes[n];
    forall i | 0 <= i < |attributes| ensures added[1 + i] == Leaf(attributes[i]) {
      assert added[1 + i] == selection[n + 1 + i] == withAttributes[n + 1 + i];
    }
    assert added[1 + |attributes|..] == relationships;
  }

  /** Nesting depth of a field: one for a leaf. */
  function Depth(f: Field): (d: nat)
    ensures d >= 1
    decreases f, 0
  {
    1 + DepthAll(f.selection)
  }

  /** The greatest depth among `fields`, zero when there are none. */
  function DepthAll(fields: seq<Field>): (d: nat)
    ensures forall i :: 0 <= i < |fields| ==> Depth(fields[i]) <= d
    ensures |fields| == 0 ==> d == 0
    decreases fields, 1
  {
    if |fields| == 0 then 0
    else
      var rest := DepthAll(fields[1..]);
      assert forall i :: 1 <= i < |fields| ==> fields[i] == fields[1..][i - 1];
      if Depth(fields[0]) > rest then Depth(fields[0]) else rest
  }

  /** Any field whose children are all leaves has depth at most two. */
  lemma FlatDepth(f: Field)
    requires forall i :: 0 <= i < |f.selection| ==> f.selection[i].selection == []
    ensures Depth(f) <= 2
  {
    DepthAllLeaves(f.selection);
  }

  lemma {:induction false} DepthAllLeaves(fields: seq<Field>)
    requires forall i :: 0 <= i < |fields| ==> fields[i].selection == []
    ensures DepthAll(fields) <= 1
  {
    if |fields| > 0 {
      DepthAllLeaves(fields[1..]);
      assert DepthAll(fields[1..]) <= 1;
      assert Depth(fields[0]) == 1 + DepthAll([]);
    }
  }

  /** Every field the planner adds is at most two levels deep, whatever the
      registry holds: related models are not expanded further. */
  lemma PlannedDepth(model: ModelDescription, registry: Registry, added: seq<Field>)
    requires Planned(model, registry, added)
    ensures forall i :: 0 <= i < |added| ==> Depth(added[i]) <= 2
  {
    forall i | 0 <= i < |added| ensures Depth(added[i]) <= 2 {
      if i == 0 {
        assert added[i] == Leaf("id");
      } else if i <= |model.attributes| {
        assert added[i] == Leaf(model.attributes[i - 1]);
      } else {
        var k := i - 1 - |model.attributes|;
        var related := registry[model.relationships[k]];
        assert added[i] == RelationshipField(model.relationships[k], related);
        assert forall j :: 0 <= j < |added[i].selection| ==> added[i].selection[j] == Leaf("id") || added[i].selection[j] == Leaf(related.attributes[j - 1]);
      }
      FlatDepth(added[i]);
    }
  }

  /** The `project` model with attributes `status` and `name` and one
      relationship `user`: the root field selects `id`, the two attributes and
      the `user` field, four children in all. */
  lemma ProjectsCount()
    ensures
      var project := ModelDescription("project", ["status", "name"], ["user"]);
      var user := ModelDescription("user", ["name"], ["address", "project"]);
      var r := Parse(project, map["user" := user], NewOperation(Some("query"), Some("projectsQuery"), None, None), Leaf("projects"));
      r.Success? && |r.value.selection| == 1 && |r.value.selection[0].selection| == 4
  {
  }

  /** The `node` model under a store keyed by model type, with entries for
      `project`, `user`, `address` and `node`: `modelFor` is asked for the
      relationship key `parent`, which names no model, so planning fails
      there although both relationships point at `node`. */
  lemma ReflexiveByType()
    ensures
      var node := ModelDescription("node", ["name"], ["parent", "children"]);
      var project := ModelDescription("project", ["status", "name"], ["user"]);
      var user := ModelDescription("user", ["name"], ["address", "project"]);
      var address := ModelDescription("address", ["city", "country"], ["user"]);
      var store := map["project" := project, "user" := user, "address" := address, "node" := node];
      Parse(node, store, NewOperation(Some("query"), Some("nodeQuery"), None, None), Leaf("node"))
        == Failure(MissingModel("parent"))
  {
  }

  /** A model related to itself (the `node` model with `parent` and
      `children`): each relationship field requests `id` and the model's own
      attributes, and the plan stops there. */
  lemma ReflexiveRelationships()
    ensures
      var node := ModelDescription("node", ["name"], ["parent", "children"]);
      var registry := map["parent" := node, "children" := node];
      var branch := (k: string) => Field(k, None, [], [Leaf("id"), Leaf("name")]);
      Parse(node, registry, NewOperation(Some("query"), Some("nodeQuery"), None, None), Leaf("node"))
        == Success(Operation(Some("query"), Some("nodeQuery"), [],
             [Field("node", None, [], [Leaf("id"), Leaf("name"), branch("parent"), branch("children")])]))
  {
    var node := ModelDescription("node", ["name"], ["parent", "children"]);
    var registry := map["parent" := node, "children" := node];
    var r := Parse(node, registry, NewOperation(Some("query"), Some("nodeQuery"), None, None), Leaf("node"));
    assert Resolvable(node, registry);
    var op := NewOperation(Some("query"), Some("nodeQuery"), None, None);
    assert op.selection == [];
    assert r.Success?;
    var planned := r.value.selection[0];
    var added := planned.selection[0..];
    assert added == planned.selection;
    var parent := RelationshipField("parent", node);
    var children := RelationshipField("children", node);
    assert parent.selection == [Leaf("id"), Leaf("name")];
    assert children.selection == [Leaf("id"), Leaf("name")];
    assert added[2] == parent && added[3] == children;
    assert added == [Leaf("id"), Leaf("name"), parent, children];
    assert planned == Field("node", None, [], added);
    assert r.value.selection == [planned];
  }
}

=== FILE: reader.dfy ===
/** A decoder for the text the renderer produces, written independently of
    it: a recursive-descent reader of the token grammar
      operation  ::= type field
      field      ::= " " [alias ": "] name ["(" argument {", " argument} ")"] " " ["{" {field} "} "]
      argument   ::= name ": " value
      value      ::= "\"" chars "\"" | integer | "true" | "false" | "null"
    The round-trip lemmas show that the rendering of a well-formed tree
    (names free of delimiters, string values free of double quotes) is read
    back as exactly that tree, so the renderer loses nothing, reorders
    nothing and never confuses two trees. */
module Reader {
  import opened Wrappers
  import opened Text
  import opened Types
  import opened Generator

  /** Characters that may appear in a name or alias: anything but the
      grammar's delimiters. */
  predicate IsNameChar(c: char) {
    c != ' ' && c != ':' && c != '(' && c != ')' && c != '{' && c != '}' && c != ',' && c != '"'
  }

  predicate IsName(s: string) {
    |s| > 0 && forall i :: 0 <= i < |s| ==> IsNameChar(s[i])
  }

  predicate NotQuote(c: char) {
    c != '"'
  }

  /** Trees whose text is unambiguous: names and aliases are non-empty and
      delimiter-free, and string values hold no double quote. */
  predicate WfValue(v: Value) {
    v.Str? ==> forall i :: 0 <= i < |v.s| ==> NotQuote(v.s[i])
  }

  predicate WfArgument(a: Argument) {
    IsName(a.name) && WfValue(a.value)
  }

  predicate WfArguments(arguments: seq<Argument>) {
    forall i :: 0 <= i < |arguments| ==> WfArgument(arguments[i])
  }

  predicate WfField(f: Field) {
    && IsName(f.name)
    && (f.alias.None? || IsName(f.alias.value))
    && WfArguments(f.arguments)
    && forall i :: 0 <= i < |f.selection| ==> WfField(f.selection[i])
  }

  predicate WfOperation(op: Operation) {
    && op.opType.Some? && IsName(op.opType.value)
    && op.name.Some? && IsName(op.name.value)
    && WfArguments(op.arguments)
    && forall i :: 0 <= i < |op.selection| ==> WfField(op.selection[i])
  }

  /** `s` starts with the character `c`. */
  predicate StartsWith(s: string, c: char) {
    |s| > 0 && s[0] == c
  }

  /** `s` starts with the two characters `c` and `d`. */
  predicate StartsWith2(s: string, c: char, d: char) {
    |s| > 1 && s[0] == c && s[1] == d
  }

  function ReadValue(s: string): (r: Option<(Value, string)>)
    ensures r.Some? ==> |r.value.1| < |s|
  {
    if |s| == 0 then None
    else if s[0] == '"' then
      var (body, rest) := Span(s[1..], NotQuote);
      if StartsWith(rest, '"') then Some((Str(body), rest[1..])) else None
    else if s[0] == 't' then
      if HasPrefix(s, "true") then Some((Bool(true), s[4..])) else None
    else if s[0] == 'f' then
      if HasPrefix(s, "false") then Some((Bool(false), s[5..])) else None
    else if s[0] == 'n' then
      if HasPrefix(s, "null") then Some((Null, s[4..])) else None
    else if s[0] == '-' then ReadNumber(s[1..], true)
    else ReadNumber(s, false)
  }

  /** A run of at least one digit, read as a number, negated after a minus
      sign; a number beyond the safe integers is not read. */
  function ReadNumber(s: string, negative: bool): (r: Option<(Value, string)>)
    ensures r.Some? ==> |r.value.1| < |s|
  {
    var (ds, rest) := Span(s, IsDigit);
    if |ds| == 0 || DigitsValue(ds) > MaxSafeInteger then None
    else
      var n := DigitsValue(ds) as int;
      Some((Int(if negative then -n else n), rest))
  }

  function ReadArgument(s: string): (r: Option<(Argument, string)>)
    ensures r.Some? ==> |r.value.1| < |s|
  {
    var (name, rest) := Span(s, IsNameChar);
    if |name| == 0 || !StartsWith2(rest, ':', ' ') then None
    else
      match ReadValue(rest[2..])
      case None => None
      case Some((v, rest')) => Some((Argument(name, v), rest'))
  }

  /** One or more arguments separated by `", "`, up to and including `)`. */
  function ReadArguments(s: string): (r: Option<(seq<Argument>, string)>)
    ensures r.Some? ==> |r.value.1| < |s|
    decreases |s|
  {
    match ReadArgument(s)
    case None => None
    case Some((a, rest)) =>
      if StartsWith2(rest, ',', ' ') then
        match ReadArguments(rest[2..])
        case None => None
        case Some((more, rest')) => Some(([a] + more, rest'))
      else if StartsWith(rest, ')') then Some(([a], rest[1..]))
      else None
  }

  /** A parenthesised argument list, or no arguments when `s` does not
      start with `(`. */
  function ReadArgumentList(s: string): (r: Option<(seq<Argument>, string)>)
    ensures r.Some? ==> |r.value.1| <= |s|
  {
    if StartsWith(s, '(') then ReadArguments(s[1..]) else Some(([], s))
  }

  /** The alias (when a `": "` follows the first name) and the name. */
  function ReadHead(s: string): (r: Option<(Option<string>, string, string)>)
    ensures r.Some? ==> |r.value.2| <= |s|
  {
    var (first, rest) := Span(s, IsNameChar);
    if |first| == 0 then None
    else if StartsWith2(rest, ':', ' ') then
      var (second, rest') := Span(rest[2..], IsNameChar);
      if |second| == 0 then None else Some((Some(first), second, rest'))
    else Some((None, first, rest))
  }

  function ReadField(s: string): (r: Option<(Field, string)>)
    ensures r.Some? ==> |r.value.1| < |s|
    decreases |s|, 0
  {
    if !StartsWith(s, ' ') then None
    else
      match ReadHead(s[1..])
      case None => None
      case Some((alias, name, rest1)) =>
        match ReadArgumentList(rest1)
        case None => None
        case Some((args, rest2)) =>
          if !StartsWith(rest2, ' ') then None
          else
            match ReadSelection(rest2[1..])
            case None => None
            case Some((selection, rest3)) => Some((Field(name, alias, args, selection), rest3))
  }

  /** A braced selection set, or an empty one when `s` does not start with
      `{`. */
  function ReadSelection(s: string): (r: Option<(seq<Field>, string)>)
    ensures r.Some? ==> |r.value.1| <= |s|
    decreases |s|, 2
  {
    if StartsWith(s, '{') then ReadFields(s[1..]) else Some(([], s))
  }

  /** Zero or more fields, up to and including the closing `"} "`. */
  function ReadFields(s: string): (r: Option<(seq<Field>, string)>)
    ensures r.Some? ==> |r.value.1| < |s|
    decreases |s|, 1
  {
    if StartsWith2(s, '}', ' ') then Some(([], s[2..]))
    else if StartsWith(s, ' ') then
      match ReadField(s)
      case None => None
      case Some((f, rest)) =>
        match ReadFields(rest)
        case None => None
        case Some((more, rest')) => Some(([f] + more, rest'))
    else None
  }

  /** A whole query document: the operation type, then the operation read
      as an unaliased field, then nothing. */
  function ReadOperation(s: string): (r: Option<Operation>)
  {
    var (opType, rest) := Span(s, IsNameChar);
    if |opType| == 0 then None
    else
      match ReadField(rest)
      case None => None
      case Some((f, rest')) =>
        if |rest'| == 0 && f.alias.None? then Some(Operation(Some(opType), Some(f.name), f.arguments, f.selection))
        else None
  }

  /** What may follow a value: the next argument or the closing parenthesis. */
  predicate FollowsValue(rest: string) {
    StartsWith(rest, ',') || StartsWith(rest, ')')
  }

  /** What may follow a field: a sibling, the parent's closing brace, or the
      end of the text. */
  predicate FollowsField(rest: string) {
    |rest| == 0 || rest[0] == ' ' || rest[0] == '}'
  }

  lemma StrRoundTrip(body: string, rest: string)
    requires forall i :: 0 <= i < |body| ==> NotQuote(body[i])
    ensures ReadValue("\"" + body + "\"" + rest) == Some((Str(body), rest))
  {
    var s := "\"" + body + "\"" + rest;
    var tail := "\"" + rest;
    assert s[1..] == body + tail;
    SpanOf(body, tail, NotQuote);
    assert tail[1..] == rest;
  }

  /** A run of digits followed by something that is not a digit. */
  lemma DigitsRoundTrip(m: nat, rest: string)
    requires FollowsValue(rest)
    ensures Span(NatToString(m) + rest, IsDigit) == (NatToString(m), rest)
    ensures DigitsValue(NatToString(m)) == m
  {
    NatToStringValue(m);
    SpanOf(NatToString(m), rest, IsDigit);
  }

  lemma IntRoundTrip(n: SafeInt, rest: string)
    requires FollowsValue(rest)
    ensures ReadValue(IntToString(n) + rest) == Some((Int(n), rest))
  {
    var m: nat := if n < 0 then -n else n;
    var digits := NatToString(m);
    DigitsRoundTrip(m, rest);
    ReadNumberOf(digits + rest, digits, rest, n < 0);
    if n < 0 {
      var s := "-" + (digits + rest);
      assert IntToString(n) + rest == s;
      assert s[0] == '-' && s[1..] == digits + rest;
      ReadNegative(s);
    } else {
      assert IntToString(n) + rest == digits + rest;
      assert (digits + rest)[0] == digits[0];
      ReadUnsigned(digits + rest);
    }
  }

  /** How `ReadValue` reads a minus sign and what follows it. */
  lemma ReadNegative(s: string)
    requires |s| > 0 && s[0] == '-'
    ensures ReadValue(s) == ReadNumber(s[1..], true)
  {
  }

  /** How `ReadValue` reads text that starts with a digit. */
  lemma ReadUnsigned(text: string)
    requires |text| > 0 && IsDigit(text[0])
    ensures ReadValue(text) == ReadNumber(text, false)
  {
    assert text[0] != '"' && text[0] != 't' && text[0] != 'f' && text[0] != 'n' && text[0] != '-';
  }

  /** `ReadNumber` on a run of digits followed by a non-digit. */
  lemma ReadNumberOf(s: string, digits: string, rest: string, negative: bool)
    requires |digits| > 0 && forall i :: 0 <= i < |digits| ==> IsDigit(digits[i])
    requires DigitsValue(digits) <= MaxSafeInteger
    requires Span(s, IsDigit) == (digits, rest)
    ensures ReadNumber(s, negative)
         == Some((Int(if negative then -(DigitsValue(digits) as int) else DigitsValue(digits)), rest))
  {
  }

  lemma KeywordRoundTrip(v: Value, rest: string)
    requires v.Bool? || v.Null?
    ensures ReadValue(ValueText(v) + rest) == Some((v, rest))
  {
    var word := ValueText(v);
    var s := word + rest;
    assert s[..|word|] == word && s[|word|..] == rest;
  }

  lemma ValueRoundTrip(v: Value, rest: string)
    requires WfValue(v) && FollowsValue(rest)
    ensures ReadValue(ValueText(v) + rest) == Some((v, rest))
  {
    match v
    case Str(body) => StrRoundTrip(body, rest);
    case Int(n) => IntRoundTrip(n, rest);
    case Bool(_) => KeywordRoundTrip(v, rest);
    case Null => KeywordRoundTrip(v, rest);
  }

  lemma ArgumentRoundTrip(a: Argument, rest: string)
    requires WfArgument(a) && FollowsValue(rest)
    ensures ReadArgument(ArgumentText(a) + rest) == Some((a, rest))
  {
    var tail := ": " + (ValueText(a.value) + rest);
    assert ArgumentText(a) + rest == a.name + tail;
    SpanOf(a.name, tail, IsNameChar);
    assert tail[2..] == ValueText(a.value) + rest;
    ValueRoundTrip(a.value, rest);
  }

  /** Joining the texts of `a` and more arguments puts `", "` after `a`. */
  lemma JoinStep(arguments: seq<Argument>)
    requires |arguments| > 1
    ensures Join(ArgumentTexts(arguments), ArgumentSeparatorToken)
         == ArgumentText(arguments[0]) + ArgumentSeparatorToken + Join(ArgumentTexts(arguments[1..]), ArgumentSeparatorToken)
  {
    var texts := ArgumentTexts(arguments);
    assert texts[1..] == ArgumentTexts(arguments[1..]);
    JoinCons(texts, ArgumentSeparatorToken);
  }

  /** How `ReadArguments` continues after one argument. */
  lemma ReadArgumentsStep(s: string, a: Argument, rest: string)
    requires ReadArgument(s) == Some((a, rest))
    ensures StartsWith2(rest, ',', ' ') ==>
      ReadArguments(s) == (match ReadArguments(rest[2..])
                           case None => None
                           case Some((more, rest')) => Some(([a] + more, rest')))
    ensures !StartsWith2(rest, ',', ' ') && StartsWith(rest, ')') ==> ReadArguments(s) == Some(([a], rest[1..]))
  {
  }

  /** One argument followed by the closing parenthesis. */
  lemma LastArgumentRoundTrip(a: Argument, rest: string)
    requires WfArgument(a)
    ensures ReadArguments(ArgumentText(a) + ")" + rest) == Some(([a], rest))
  {
    var tail := ")" + rest;
    assert ArgumentText(a) + ")" + rest == ArgumentText(a) + tail;
    ArgumentRoundTrip(a, tail);
    ReadArgumentsStep(ArgumentText(a) + tail, a, tail);
    assert tail[1..] == rest;
  }

  /** One argument followed by a separator and the text of more arguments. */
  lemma NextArgumentRoundTrip(a: Argument, more: seq<Argument>, joined: string, rest: string)
    requires WfArgument(a)
    requires ReadArguments(joined + ")" + rest) == Some((more, rest))
    ensures ReadArguments(ArgumentText(a) + ArgumentSeparatorToken + joined + ")" + rest) == Some(([a] + more, rest))
  {
    var first := ArgumentText(a);
    var tail := ", " + (joined + ")" + rest);
    Concat5Assoc(first, ArgumentSeparatorToken, joined, ")", rest);
    ArgumentRoundTrip(a, tail);
    ReadArgumentsStep(first + tail, a, tail);
    assert tail[2..] == joined + ")" + rest;
  }

  lemma {:induction false} ArgumentsRoundTrip(arguments: seq<Argument>, rest: string)
    requires |arguments| > 0 && WfArguments(arguments)
    ensures ReadArguments(Join(ArgumentTexts(arguments), ArgumentSeparatorToken) + ")" + rest) == Some((arguments, rest))
    decreases |arguments|
  {
    if |arguments| == 1 {
      LastArgumentRoundTrip(arguments[0], rest);
      assert arguments == [arguments[0]];
    } else {
      var more := arguments[1..];
      JoinStep(arguments);
      ArgumentsRoundTrip(more, rest);
      NextArgumentRoundTrip(arguments[0], more, Join(ArgumentTexts(more), ArgumentSeparatorToken), rest);
      FirstAndRest(arguments);
    }
  }

  lemma ArgumentListRoundTrip(arguments: seq<Argument>, rest: string)
    requires WfArguments(arguments) && StartsWith(rest, ' ')
    ensures ReadArgumentList(ArgumentsPart(arguments) + rest) == Some((arguments, rest))
  {
    if |arguments| > 0 {
      var inner := Join(ArgumentTexts(arguments), ArgumentSeparatorToken);
      assert ArgumentsPart(arguments) + rest == "(" + (inner + ")" + rest);
      ArgumentsRoundTrip(arguments, rest);
    } else {
      assert ArgumentsPart(arguments) + rest == rest;
    }
  }

  lemma HeadRoundTrip(alias: Option<string>, name: string, rest: string)
    requires alias.None? || IsName(alias.value)
    requires IsName(name)
    requires StartsWith(rest, '(') || StartsWith(rest, ' ')
    ensures ReadHead(AliasPart(alias) + name + rest) == Some((alias, name, rest))
  {
    if alias.Some? {
      assert AliasPart(alias) + name + rest == alias.value + (": " + (name + rest));
      AliasedHead(alias.value, name, rest);
    } else {
      assert AliasPart(alias) + name + rest == name + rest;
      UnaliasedHead(name, rest);
    }
  }

  lemma UnaliasedHead(name: string, rest: string)
    requires IsName(name)
    requires StartsWith(rest, '(') || StartsWith(rest, ' ')
    ensures ReadHead(name + rest) == Some((None, name, rest))
  {
    SpanOf(name, rest, IsNameChar);
    assert !StartsWith2(rest, ':', ' ');
  }

  lemma AliasedHead(alias: string, name: string, rest: string)
    requires IsName(alias) && IsName(name)
    requires StartsWith(rest, '(') || StartsWith(rest, ' ')
    ensures ReadHead(alias + (": " + (name + rest))) == Some((Some(alias), name, rest))
  {
    var tail := ": " + (name + rest);
    assert tail[0] == ':' && tail[1] == ' ';
    SpanOf(alias, tail, IsNameChar);
    assert tail[2..] == name + rest;
    SpanOf(name, rest, IsNameChar);
  }

  /** How `ReadField` composes its parts. */
  lemma ReadFieldParts(s: string, alias: Option<string>, name: string, arguments: seq<Argument>, selection: seq<Field>, rest1: string, rest2: string, rest: string)
    requires StartsWith(s, ' ')
    requires ReadHead(s[1..]) == Some((alias, name, rest1))
    requires ReadArgumentList(rest1) == Some((arguments, rest2))
    requires StartsWith(rest2, ' ')
    requires ReadSelection(rest2[1..]) == Some((selection, rest))
    ensures ReadField(s) == Some((Field(name, alias, arguments, selection), rest))
  {
  }

  lemma {:induction false} FieldRoundTrip(f: Field, rest: string)
    requires WfField(f) && FollowsField(rest)
    ensures ReadField(GenerateField(f) + rest) == Some((f, rest))
    decreases f, 0
  {
    var selectionText := if |f.selection| > 0 then GenerateSelectionSet(f.selection) else EmptyToken;
    var afterArguments := " " + (selectionText + rest);
    var afterName := ArgumentsPart(f.arguments) + afterArguments;
    var head := AliasPart(f.alias) + f.name + afterName;
    var s := GenerateField(f) + rest;
    FieldShape(f);
    Concat7Assoc(SeparatorToken, AliasPart(f.alias), f.name, ArgumentsPart(f.arguments), SeparatorToken, selectionText, rest);
    assert s == " " + head;
    assert StartsWith(afterName, '(') || StartsWith(afterName, ' ');
    HeadRoundTrip(f.alias, f.name, afterName);
    ArgumentListRoundTrip(f.arguments, afterArguments);
    SelectionRoundTrip(f.selection, rest);
    assert afterArguments[1..] == selectionText + rest;
    ReadFieldParts(s, f.alias, f.name, f.arguments, f.selection, afterName, afterArguments, rest);
  }

  lemma {:induction false} SelectionRoundTrip(fields: seq<Field>, rest: string)
    requires forall i :: 0 <= i < |fields| ==> WfField(fields[i])
    requires FollowsField(rest)
    ensures ReadSelection((if |fields| > 0 then GenerateSelectionSet(fields) else EmptyToken) + rest) == Some((fields, rest))
    decreases fields, 2
  {
    if |fields| > 0 {
      var inner := GenerateFields(fields) + "} " + rest;
      assert GenerateSelectionSet(fields) + rest == "{" + inner;
      FieldsRoundTrip(fields, rest);
      ReadBraced(inner);
    } else {
      assert EmptyToken + rest == rest;
    }
  }

  /** `ReadSelection` after an opening brace is `ReadFields`. */
  lemma ReadBraced(inner: string)
    ensures ReadSelection("{" + inner) == ReadFields(inner)
  {
    assert ("{" + inner)[1..] == inner;
  }

  lemma {:induction false} FieldsRoundTrip(fields: seq<Field>, rest: string)
    requires forall i :: 0 <= i < |fields| ==> WfField(fields[i])
    ensures ReadFields(GenerateFields(fields) + "} " + rest) == Some((fields, rest))
    decreases fields, 1
  {
    if |fields| == 0 {
      assert GenerateFields(fields) + "} " + rest == "} " + rest;
      assert ("} " + rest)[2..] == rest;
    } else {
      var more := fields[1..];
      var tail := GenerateFields(more) + "} " + rest;
      var s := GenerateField(fields[0]) + tail;
      assert GenerateFields(fields) == GenerateField(fields[0]) + GenerateFields(more);
      Concat4Assoc(GenerateField(fields[0]), GenerateFields(more), "} ", rest);
      assert FollowsField(tail) by {
        if |more| > 0 {
          assert tail[0] == GenerateFields(more)[0];
        } else {
          assert tail == "} " + rest;
        }
      }
      FieldRoundTrip(fields[0], tail);
      assert forall i :: 0 <= i < |more| ==> more[i] == fields[i + 1];
      FieldsRoundTrip(more, rest);
      ReadFieldsStep(s, fields[0], tail, more, rest);
      FirstAndRest(fields);
    }
  }

  /** How `ReadFields` continues after one field. */
  lemma ReadFieldsStep(s: string, f: Field, tail: string, more: seq<Field>, rest: string)
    requires ReadField(s) == Some((f, tail))
    requires ReadFields(tail) == Some((more, rest))
    ensures ReadFields(s) == Some(([f] + more, rest))
  {
    assert StartsWith(s, ' ');
  }

  /** The renderer's output reads back as the operation that produced it. */
  lemma OperationRoundTrip(op: Operation)
    requires WfOperation(op)
    ensures ReadOperation(Generate(op)) == Some(op)
  {
    var f := OperationField(op);
    var text := GenerateField(f);
    assert WfField(f);
    SpanOf(op.opType.value, text, IsNameChar);
    FieldRoundTrip(f, []);
    assert text + [] == text;
  }

  /** Two well-formed operations with the same text are the same operation. */
  lemma GenerateInjective(op1: Operation, op2: Operation)
    requires WfOperation(op1) && WfOperation(op2)
    requires Generate(op1) == Generate(op2)
    ensures op1 == op2
  {
    OperationRoundTrip(op1);
    OperationRoundTrip(op2);
  }
}

=== FILE: serializer.dfy ===
/** The extraction hooks of the serializer (addon/serializer.js): a response
    keys each record by its model name, so the id and the attributes are
    read from under that key, and relationships are never extracted. */
module Serializer {
  import opened Wrappers
  import opened Types

  /** Key/value entries in enumeration order. The values are whatever the
      response holds (strings, numbers of any size, arrays, embedded
      objects); the hooks copy them and never look inside, so their type is
      a parameter. */
  type Entries<V> = seq<(string, V)>

  /** A record object: its own keys, each once, with their values, in
      `Object.keys` enumeration order. */
  type Record<V> = r: Entries<V> | DistinctKeys(r)

  /** The resource hash: record objects under their model names. */
  type ResourceHash<V> = map<string, Record<V>>

  /** The hash has no entry under the model name; the source dereferences the
      missing record and throws. */
  datatype SerializerError = MissingRecord(modelName: string)

  /** `record[key]`: the value of the last entry with that key, absent when
      there is none. */
  function Lookup<V>(record: Entries<V>, key: string): (r: Option<V>)
    ensures r.None? <==> forall i :: 0 <= i < |record| ==> record[i].0 != key
    ensures forall i :: 0 <= i < |record| && record[i].0 == key && (forall j :: i < j < |record| ==> record[j].0 != key)
              ==> r == Some(record[i].1)
  {
    if |record| == 0 then None
    else
      var last := record[|record| - 1];
      var init := record[..|record| - 1];
      assert forall i :: 0 <= i < |init| ==> init[i] == record[i];
      if last.0 == key then Some(last.1) else Lookup(init, key)
  }

  /** `extractId`: the `id` entry of the record under the model name. */
  function ExtractId<V>(modelName: string, hash: ResourceHash<V>): (r: Result<Option<V>, SerializerError>)
    ensures r.Failure? <==> modelName !in hash
    ensures r.Success? ==> r.value == Lookup(hash[modelName], "id")
  {
    if modelName in hash then Success(Lookup(hash[modelName], "id")) else Failure(MissingRecord(modelName))
  }

  /** `_extractType`: the model name, whatever the hash holds. */
  function ExtractType(modelName: string): (r: string)
    ensures r == modelName
  {
    modelName
  }

  /** Entry `i` is not `id` and no later non-`id` entry maps to the same
      attribute key. */
  predicate LastForKey<V>(record: Entries<V>, keyFor: string -> string, i: int)
    requires 0 <= i < |record|
  {
    record[i].0 != "id" && forall j :: i < j < |record| && record[j].0 != "id" ==> keyFor(record[j].0) != keyFor(record[i].0)
  }

  /** The copy loop of `extractAttributes`: every entry but `id`, re-keyed by
      `keyFor`, a later entry overwriting an earlier one with the same new
      key. */
  function CopyAttributes<V>(record: Entries<V>, keyFor: string -> string): (m: map<string, V>)
    ensures m.Keys == set i | 0 <= i < |record| && record[i].0 != "id" :: keyFor(record[i].0)
  {
    if |record| == 0 then map[]
    else
      var init := record[..|record| - 1];
      var last := record[|record| - 1];
      assert forall i :: 0 <= i < |init| ==> init[i] == record[i];
      var m := CopyAttributes(init, keyFor);
      if last.0 == "id" then m else m[keyFor(last.0) := last.1]
  }

  /** The value under an attribute key is the one from the last entry that
      maps to it. */
  lemma {:induction false} CopyLast<V>(record: Entries<V>, keyFor: string -> string, i: int)
    requires 0 <= i < |record| && LastForKey(record, keyFor, i)
    ensures keyFor(record[i].0) in CopyAttributes(record, keyFor)
    ensures CopyAttributes(record, keyFor)[keyFor(record[i].0)] == record[i].1
  {
    var init := record[..|record| - 1];
    var last := record[|record| - 1];
    if i < |record| - 1 {
      assert init[i] == record[i];
      assert LastForKey(init, keyFor, i) by {
        forall j | i < j < |init| && init[j].0 != "id" ensures keyFor(init[j].0) != keyFor(init[i].0) {
          assert init[j] == record[j];
        }
      }
      CopyLast(init, keyFor, i);
      if last.0 != "id" {
        assert keyFor(last.0) != keyFor(record[i].0);
      }
    }
  }

  /** `CopyAttributes` on a non-empty record: the copy of all but the last
      entry, updated with the last entry unless it is `id`. */
  lemma CopyStep<V>(record: Entries<V>, keyFor: string -> string)
    requires |record| > 0
    ensures CopyAttributes(record, keyFor)
         == (var m := CopyAttributes(record[..|record| - 1], keyFor);
             var last := record[|record| - 1];
             if last.0 == "id" then m else m[keyFor(last.0) := last.1])
  {
  }

  /** `extractAttributes`: the copied attributes of the record under the
      model name, with `keyForAttribute` given as `keyFor`. */
  function ExtractAttributes<V>(modelName: string, hash: ResourceHash<V>, keyFor: string -> string): (r: Result<map<string, V>, SerializerError>)
    ensures r.Failure? <==> modelName !in hash
    ensures r.Success? ==> r.value == CopyAttributes(hash[modelName], keyFor)
  {
    if modelName in hash then Success(CopyAttributes(hash[modelName], keyFor)) else Failure(MissingRecord(modelName))
  }

  /** `extractRelationships`: always empty. */
  function ExtractRelationships<V>(): (r: map<string, Record<V>>)
    ensures |r| == 0
  {
    map[]
  }

  /** The `id` entry never reaches the attributes: removing it, wherever it
      stands, changes nothing. */
  lemma {:induction false} IdIgnored<V>(before: Entries<V>, v: V, after: Entries<V>, keyFor: string -> string)
    ensures CopyAttributes(before + [("id", v)] + after, keyFor) == CopyAttributes(before + after, keyFor)
    decreases |after|
  {
    var with := before + [("id", v)] + after;
    var without := before + after;
    CopyStep(with, keyFor);
    if |after| == 0 {
      assert with[..|with| - 1] == before;
      assert without == before;
    } else {
      var init := after[..|after| - 1];
      assert with[..|with| - 1] == before + [("id", v)] + init;
      assert without[..|without| - 1] == before + init;
      assert with[|with| - 1] == without[|without| - 1];
      CopyStep(without, keyFor);
      IdIgnored(before, v, init, keyFor);
    }
  }

  /** With the identity as `keyFor`, the attributes are the record's own
      entries other than `id`, each with its value. */
  lemma IdentityKeys<V>(record: Record<V>)
    ensures var m := CopyAttributes(record, k => k);
      && "id" !in m
      && forall i :: 0 <= i < |record| && record[i].0 != "id" ==> record[i].0 in m && m[record[i].0] == record[i].1
  {
    var m := CopyAttributes(record, k => k);
    forall i | 0 <= i < |record| && record[i].0 != "id"
      ensures record[i].0 in m && m[record[i].0] == record[i].1
    {
      assert LastForKey(record, k => k, i);
      CopyLast(record, k => k, i);
    }
  }
}

=== FILE: text.dfy ===
/** String helpers shared by the renderer, its decoder and the adapter:
    substring search, splitting, character classes, decimal numerals and
    character counting. Strings are `seq<char>`. */
module Text {
  import opened Wrappers

  /** The line separator of an HTTP header block. */
  const CRLF: string := "\r\n"

  predicate HasPrefix(s: string, p: string) {
    |p| <= |s| && s[..|p|] == p
  }

  lemma PrefixOfConcat(p: string, x: string)
    ensures HasPrefix(p + x, p)
  {
    assert (p + x)[..|p|] == p;
  }

  /** Dropping an empty second part of a concatenation of six. */
  lemma ConcatDropEmpty(a: string, e: string, b: string, c: string, d: string, g: string)
    requires e == ""
    ensures a + e + b + c + d + g == (a + b) + (c + d + g)
  {
    assert a + e == a;
  }

  /** Putting the same text in front of a string and of its prefix keeps it
      a prefix. */
  lemma PrefixExtend(t: string, s: string, p: string)
    requires HasPrefix(s, p)
    ensures HasPrefix(t + s, t + p)
  {
    assert t + s == (t + p) + s[|p|..];
  }

  /** Regrouping a concatenation of seven strings to the right after the
      first. Stated on plain variables so that callers need not unfold the
      functions that produced the parts. */
  lemma Concat7Assoc(a: string, b: string, c: string, d: string, e: string, g: string, rest: string)
    ensures a + b + c + d + e + g + rest == a + (b + c + (d + (e + (g + rest))))
  {
  }

  /** Regrouping a concatenation of four strings. */
  lemma Concat4Assoc(a: string, b: string, c: string, d: string)
    ensures (a + b) + c + d == a + (b + c + d)
  {
  }

  /** Regrouping a concatenation of five strings. */
  lemma Concat5Assoc(a: string, b: string, c: string, d: string, e: string)
    ensures a + b + c + d + e == a + (b + (c + d + e))
  {
  }

  /** `p` occurs in `s` starting at index `j`. */
  predicate OccursAt(s: string, p: string, j: int) {
    0 <= j && j + |p| <= |s| && s[j..j + |p|] == p
  }

  predicate Contains(s: string, p: string) {
    exists j :: 0 <= j <= |s| && OccursAt(s, p, j)
  }

  /** JavaScript's `indexOf`: the first index at which `p` occurs in `s`,
      `None` standing for `-1`. */
  function IndexOf(s: string, p: string): (r: Option<nat>)
    ensures r.Some? ==> OccursAt(s, p, r.value)
    ensures r.Some? ==> forall j :: 0 <= j < r.value ==> !OccursAt(s, p, j)
    ensures r.None? <==> !Contains(s, p)
    decreases |s|
  {
    if |s| < |p| then None
    else if s[..|p|] == p then Some(0)
    else
      var tail := IndexOf(s[1..], p);
      forall j | 0 <= j ensures OccursAt(s, p, j + 1) <==> OccursAt(s[1..], p, j) {
        OccursShift(s, p, j);
      }
      assert !OccursAt(s, p, 0);
      if tail.None? then
        assert forall j :: !OccursAt(s, p, j) by {
          forall j ensures !OccursAt(s, p, j) {
            if j > 0 { assert !OccursAt(s[1..], p, j - 1); }
          }
        }
        None
      else
        assert forall j :: 0 <= j < tail.value + 1 ==> !OccursAt(s, p, j) by {
          forall j | 0 < j < tail.value + 1 ensures !OccursAt(s, p, j) {
            assert !OccursAt(s[1..], p, j - 1);
          }
        }
        Some(tail.value + 1)
  }

  /** `s` cut around an occurrence of `p`. */
  lemma SplitAround(s: string, p: string, i: nat)
    requires OccursAt(s, p, i)
    ensures s == s[..i] + p + s[i + |p|..]
  {
    assert s == s[..i] + s[i..i + |p|] + s[i + |p|..];
  }

  /** The text before the first occurrence of `p` does not contain `p`. */
  lemma BeforeFirst(s: string, p: string, i: nat)
    requires 0 < |p| && i <= |s|
    requires forall j :: 0 <= j < i ==> !OccursAt(s, p, j)
    ensures !Contains(s[..i], p)
  {
    var key := s[..i];
    forall j | 0 <= j <= |key| ensures !OccursAt(key, p, j) {
      if j + |p| <= |key| {
        assert key[j..j + |p|] == s[j..j + |p|];
        assert !OccursAt(s, p, j);
      }
    }
  }

  /** An occurrence one place into `s` is an occurrence in its tail. */
  lemma OccursShift(s: string, p: string, j: nat)
    requires |s| > 0
    ensures OccursAt(s, p, j + 1) <==> OccursAt(s[1..], p, j)
  {
    if j + 1 + |p| <= |s| {
      assert s[j + 1..j + 1 + |p|] == s[1..][j..j + |p|];
    }
  }

  /** A pattern that cannot overlap a shifted copy of itself: a single
      character, or two distinct ones (`"\r\n"`, `": "`). */
  predicate NonOverlapping(p: string) {
    |p| == 1 || (|p| == 2 && p[0] != p[1])
  }

  /** When `a` does not contain `p`, the first occurrence of `p` in `a + p + b`
      is the one right after `a`. */
  lemma FirstOccurrence(a: string, p: string, b: string)
    requires NonOverlapping(p)
    requires !Contains(a, p)
    ensures IndexOf(a + p + b, p) == Some(|a|)
  {
    var s := a + p + b;
    assert s[|a|..|a| + |p|] == p;
    assert OccursAt(s, p, |a|);
    forall j | 0 <= j < |a| ensures !OccursAt(s, p, j) {
      if j + |p| <= |a| {
        assert s[j..j + |p|] == a[j..j + |p|];
        assert !OccursAt(a, p, j);
      } else {
        // the only straddling start: the last character of `a`, with |p| == 2
        assert |p| == 2 && j == |a| - 1;
        assert s[j..j + |p|][1] == p[0];
      }
    }
    var r := IndexOf(s, p);
    assert r.Some? && r.value >= |a|;
  }

  /** JavaScript's `split(sep)`: the pieces between successive occurrences of
      `sep`, always at least one. */
  function Split(s: string, sep: string): (r: seq<string>)
    requires |sep| > 0
    ensures |r| > 0
    decreases |s|
  {
    match IndexOf(s, sep)
    case None => [s]
    case Some(i) => [s[..i]] + Split(s[i + |sep|..], sep)
  }

  /** JavaScript's `join(sep)` on a list of strings. */
  function Join(parts: seq<string>, sep: string): (r: string)
    ensures |parts| == 1 ==> r == parts[0]
  {
    if |parts| == 0 then ""
    else if |parts| == 1 then parts[0]
    else parts[0] + sep + Join(parts[1..], sep)
  }

  lemma JoinCons(parts: seq<string>, sep: string)
    requires |parts| > 1
    ensures Join(parts, sep) == parts[0] + sep + Join(parts[1..], sep)
  {
  }

  /** Splitting undoes joining when no part contains the separator. */
  lemma {:induction false} SplitJoin(parts: seq<string>, sep: string)
    requires |parts| > 0 && |sep| > 0
    requires NonOverlapping(sep)
    requires forall i :: 0 <= i < |parts| ==> !Contains(parts[i], sep)
    ensures Split(Join(parts, sep), sep) == parts
    decreases |parts|
  {
    if |parts| == 1 {
      assert IndexOf(parts[0], sep).None?;
    } else {
      var more := parts[1..];
      var tail := Join(more, sep);
      JoinCons(parts, sep);
      FirstOccurrence(parts[0], sep, tail);
      SplitStep(parts[0], sep, tail);
      assert forall i :: 0 <= i < |more| ==> more[i] == parts[i + 1];
      SplitJoin(more, sep);
      FirstAndRest(parts);
    }
  }

  /** Joining the parts of a split gives back the text. */
  lemma {:induction false} JoinSplit(s: string, sep: string)
    requires |sep| > 0
    ensures Join(Split(s, sep), sep) == s
    decreases |s|
  {
    match IndexOf(s, sep)
    case None =>
    case Some(i) =>
      var head := s[..i];
      var rest := s[i + |sep|..];
      var tail := Split(rest, sep);
      JoinSplit(rest, sep);
      assert Split(s, sep) == [head] + tail;
      JoinPrepend(head, tail, sep);
      SplitAround(s, sep, i);
  }

  lemma JoinPrepend(head: string, tail: seq<string>, sep: string)
    requires |tail| > 0
    ensures Join([head] + tail, sep) == head + sep + Join(tail, sep)
  {
    assert ([head] + tail)[1..] == tail;
  }

  /** How `Split` continues after a first occurrence of the separator. */
  lemma SplitStep(head: string, sep: string, tail: string)
    requires |sep| > 0 && IndexOf(head + sep + tail, sep) == Some(|head|)
    ensures Split(head + sep + tail, sep) == [head] + Split(tail, sep)
  {
    var s := head + sep + tail;
    assert s[..|head|] == head;
    assert s[|head| + |sep|..] == tail;
  }

  lemma FirstAndRest<T>(s: seq<T>)
    requires |s| > 0
    ensures [s[0]] + s[1..] == s
  {
  }

  /** No carriage return or line feed anywhere in `s`. */
  predicate SingleLine(s: string) {
    forall i :: 0 <= i < |s| ==> s[i] != '\r' && s[i] != '\n'
  }

  lemma SingleLineHasNoCRLF(s: string)
    requires SingleLine(s)
    ensures !Contains(s, CRLF)
  {
    forall j | 0 <= j && j + 2 <= |s| ensures !OccursAt(s, CRLF, j) {
      assert s[j..j + 2][0] == s[j];
    }
  }

  /** Length of the longest prefix of `s` whose characters all satisfy
      `keep`. */
  function KeptLength(s: string, keep: char -> bool): (n: nat)
    ensures n <= |s|
    ensures forall i :: 0 <= i < n ==> keep(s[i])
    ensures n == |s| || !keep(s[n])
    decreases |s|
  {
    if |s| == 0 || !keep(s[0]) then 0
    else
      var m := KeptLength(s[1..], keep);
      assert forall i :: 0 < i <= m ==> s[i] == s[1..][i - 1];
      1 + m
  }

  /** Longest prefix of `s` whose characters all satisfy `keep`, and the rest. */
  function Span(s: string, keep: char -> bool): (r: (string, string))
    ensures r.0 + r.1 == s
    ensures forall i :: 0 <= i < |r.0| ==> keep(r.0[i])
    ensures |r.1| == 0 || !keep(r.1[0])
  {
    var n := KeptLength(s, keep);
    assert s[..n] + s[n..] == s;
    (s[..n], s[n..])
  }

  /** `Span` stops exactly at the end of a run of kept characters. */
  lemma SpanOf(t: string, rest: string, keep: char -> bool)
    requires forall i :: 0 <= i < |t| ==> keep(t[i])
    requires |rest| == 0 || !keep(rest[0])
    ensures Span(t + rest, keep) == (t, rest)
  {
    var s := t + rest;
    KeptLengthOf(t, rest, keep);
    assert s[..|t|] == t && s[|t|..] == rest;
  }

  lemma {:induction false} KeptLengthOf(t: string, rest: string, keep: char -> bool)
    requires forall i :: 0 <= i < |t| ==> keep(t[i])
    requires |rest| == 0 || !keep(rest[0])
    ensures KeptLength(t + rest, keep) == |t|
    decreases |t|
  {
    if |t| > 0 {
      assert (t + rest)[1..] == t[1..] + rest;
      KeptLengthOf(t[1..], rest, keep);
    } else {
      assert t + rest == rest;
    }
  }

  predicate IsDigit(c: char) {
    '0' <= c <= '9'
  }

  function DigitChar(d: nat): (c: char)
    requires d < 10
    ensures IsDigit(c)
  {
    "0123456789"[d]
  }

  function DigitValue(c: char): (d: nat)
    requires IsDigit(c)
    ensures d < 10
  {
    (c as int - '0' as int) as nat
  }

  /** Decimal numeral of a natural number, most significant digit first. */
  function NatToString(n: nat): (r: string)
    ensures |r| > 0
    ensures forall i :: 0 <= i < |r| ==> IsDigit(r[i])
  {
    if n < 10 then [DigitChar(n)]
    else NatToString(n / 10) + [DigitChar(n % 10)]
  }

  /** The numeral of a natural number has no leading zero: it is `0` for
      zero and starts with a non-zero digit otherwise. */
  lemma {:induction false} NatToStringLead(n: nat)
    ensures n == 0 ==> NatToString(n) == "0"
    ensures n != 0 ==> NatToString(n)[0] != '0'
  {
    if n >= 10 {
      NatToStringLead(n / 10);
      assert NatToString(n)[0] == NatToString(n / 10)[0];
    } else {
      assert NatToString(n) == ["0123456789"[n]];
    }
  }

  /** The number a run of decimal digits denotes. */
  function DigitsValue(ds: string): (n: nat)
    requires forall i :: 0 <= i < |ds| ==> IsDigit(ds[i])
  {
    if |ds| == 0 then 0
    else DigitsValue(ds[..|ds| - 1]) * 10 + DigitValue(ds[|ds| - 1])
  }

  lemma {:induction false} NatToStringValue(n: nat)
    ensures DigitsValue(NatToString(n)) == n
  {
    if n >= 10 {
      var ds := NatToString(n);
      assert ds[..|ds| - 1] == NatToString(n / 10);
      NatToStringValue(n / 10);
      assert DigitValue(DigitChar(n % 10)) == n % 10 by {
        var d := n % 10;
        assert d == 0 || d == 1 || d == 2 || d == 3 || d == 4 || d == 5 || d == 6 || d == 7 || d == 8 || d == 9;
      }
    } else {
      assert DigitValue(DigitChar(n)) == n by {
        assert n == 0 || n == 1 || n == 2 || n == 3 || n == 4 || n == 5 || n == 6 || n == 7 || n == 8 || n == 9;
      }
    }
  }

  function Pow10(k: nat): (p: nat)
    ensures p >= 1
  {
    if k == 0 then 1 else 10 * Pow10(k - 1)
  }

  /** A number below `10^k` is written with at most `k` digits. */
  lemma {:induction false} NatToStringLength(n: nat, k: nat)
    requires 0 < k && n < Pow10(k)
    ensures |NatToString(n)| <= k
  {
    if n >= 10 {
      assert k > 1;
      NatToStringLength(n / 10, k - 1);
    }
  }

  /** JavaScript's `String(n)` for an integer: an optional minus sign and the
      decimal digits. */
  function IntToString(n: int): (r: string)
    ensures |r| > 0 && (r[0] == '-' || IsDigit(r[0]))
    ensures forall i :: 1 <= i < |r| ==> IsDigit(r[i])
    ensures r[0] == '-' <==> n < 0
    ensures DigitsValue(if n < 0 then r[1..] else r) == (if n < 0 then -n else n)
    ensures n == 0 ==> r == "0"
    ensures n != 0 ==> r[if n < 0 then 1 else 0] != '0'
  {
    NatToStringValue(if n < 0 then -n else n);
    NatToStringLead(if n < 0 then -n else n);
    if n < 0 then
      var digits := NatToString(-n);
      assert ("-" + digits)[1..] == digits;
      "-" + digits
    else NatToString(n)
  }

  /** Number of occurrences of `c` in `s`. */
  function CountChar(s: string, c: char): (n: nat) {
    if |s| == 0 then 0
    else (if s[0] == c then 1 else 0) + CountChar(s[1..], c)
  }

  lemma {:induction false} CountConcat(a: string, b: string, c: char)
    ensures CountChar(a + b, c) == CountChar(a, c) + CountChar(b, c)
    decreases |a|
  {
    if |a| == 0 {
      assert a + b == b;
    } else {
      assert (a + b)[1..] == a[1..] + b;
      CountConcat(a[1..], b, c);
    }
  }

  lemma {:induction false} CountAbsent(s: string, c: char)
    requires forall i :: 0 <= i < |s| ==> s[i] != c
    ensures CountChar(s, c) == 0
    decreases |s|
  {
    if |s| > 0 {
      CountAbsent(s[1..], c);
    }
  }
}

=== FILE: types.dfy ===
/** The query tree: arguments, fields and the operation at its root
    (addon/types/). Argument sets and selection sets are both ordered
    sequences with JavaScript `Array` push/pop behaviour. */
module Types {
  import opened Wrappers

  /** `Number.MAX_SAFE_INTEGER`, the largest integer up to which every
      integer is a JavaScript number. */
  const MaxSafeInteger: int := 9007199254740991

  /** The integers a JavaScript number holds exactly. */
  type SafeInt = i: int | -MaxSafeInteger <= i <= MaxSafeInteger

  /** An argument value. A number is a safe integer; JavaScript values of
      other types (arrays, objects, `undefined`) are outside the model. */
  datatype Value = Str(s: string) | Int(i: SafeInt) | Bool(b: bool) | Null

  datatype Argument = Argument(name: string, value: Value)

  /** A requested field: a leaf when `selection` is empty, an object field
      with a sub-selection otherwise. */
  datatype Field = Field(name: string, alias: Option<string>, arguments: seq<Argument>, selection: seq<Field>)

  /** The root of a query tree. The type and name are optional because the
      source passes along whatever the options object holds. */
  datatype Operation = Operation(opType: Option<string>, name: Option<string>, arguments: seq<Argument>, selection: seq<Field>)

  /** No key occurs twice: the entries of one JavaScript object. */
  predicate DistinctKeys<V>(entries: seq<(string, V)>) {
    forall i, j :: 0 <= i < j < |entries| ==> entries[i].0 != entries[j].0
  }

  /** A query object: its own enumerable keys with their values, in
      `Object.keys` enumeration order. */
  type Query = q: seq<(string, Value)> | DistinctKeys(q)

  /** `push(x)` on an array-backed set: appends `x` and keeps the prefix. */
  function Push<T>(items: seq<T>, x: T): (r: seq<T>)
    ensures |r| == |items| + 1
    ensures r[..|items|] == items && r[|items|] == x
  {
    items + [x]
  }

  /** `pop()`: removes and returns the last element; on an empty set it
      returns `undefined` and leaves the set empty. */
  function Pop<T>(items: seq<T>): (r: (Option<T>, seq<T>))
    ensures |items| == 0 ==> r.0 == None && r.1 == []
    ensures |items| > 0 ==> r.0 == Some(items[|items| - 1]) && r.1 + [items[|items| - 1]] == items
  {
    if |items| == 0 then (None, [])
    else (Some(items[|items| - 1]), items[..|items| - 1])
  }

  /** `pop()` undoes `push(x)` and hands back `x`. */
  lemma PushThenPop<T>(items: seq<T>, x: T)
    ensures Pop(Push(items, x)) == (Some(x), items)
  {
    assert Push(items, x)[..|items|] == items;
  }

  /** `toArray()` of a selection set: `new Array(...items)`. A selection set
      holds fields, never a lone number, so the `Array` constructor builds an
      array of exactly its arguments. */
  function ToArray(items: seq<Field>): (r: seq<Field>)
    ensures |r| == |items| && forall i :: 0 <= i < |r| ==> r[i] == items[i]
  {
    seq(|items|, i requires 0 <= i < |items| => items[i])
  }

  /** The array follows the set: after `push(x)` it holds the earlier array
      and then `x`, and after `pop()` the earlier array without its last
      element. */
  lemma ToArrayPushPop(items: seq<Field>, x: Field)
    ensures ToArray(Push(items, x)) == ToArray(items) + [x]
    ensures |items| > 0 ==> ToArray(Pop(items).1) == ToArray(items)[..|items| - 1]
  {
  }

  /** The `ArgumentSet`/`SelectionSet` constructors: start empty and push
      every constructor argument in turn. */
  function NewSet<T>(elements: seq<T>): (r: seq<T>)
    ensures r == elements
  {
    if |elements| == 0 then []
    else Push(NewSet(elements[..|elements| - 1]), elements[|elements| - 1])
  }

  /** `ArgumentSet.fromQuery`: one argument per key of the query, pushed in
      key order, holding the query's value unchanged. */
  function FromQuery(query: Query): (r: seq<Argument>)
    ensures |r| == |query|
    ensures forall i :: 0 <= i < |query| ==> r[i].name == query[i].0 && r[i].value == query[i].1
  {
    if |query| == 0 then []
    else
      var (key, value) := query[|query| - 1];
      Push(FromQuery(query[..|query| - 1]), Argument(key, value))
  }

  /** The `Field` constructor: a missing argument or selection set becomes an
      empty one; name and alias are kept as given. */
  function NewField(name: string, alias: Option<string>, arguments: Option<seq<Argument>>, selection: Option<seq<Field>>): (r: Field)
    ensures r.name == name && r.alias == alias
    ensures r.arguments == (if arguments.Some? then arguments.value else [])
    ensures r.selection == (if selection.Some? then selection.value else [])
  {
    Field(name, alias, arguments.Or(NewSet([])), selection.Or(NewSet([])))
  }

  /** `new Field(name)`: a bare leaf, with no alias and empty argument and
      selection sets. */
  function Leaf(name: string): (r: Field)
    ensures r.name == name && r.alias.None? && r.arguments == [] && r.selection == []
  {
    NewField(name, None, None, None)
  }

  /** The `Operation` constructor, with the same defaulting as `Field`. */
  function NewOperation(opType: Option<string>, name: Option<string>, arguments: Option<seq<Argument>>, rootSet: Option<seq<Field>>): (r: Operation)
    ensures r.opType == opType && r.name == name
    ensures r.arguments == (if arguments.Some? then arguments.value else [])
    ensures r.selection == (if rootSet.Some? then rootSet.value else [])
  {
    Operation(opType, name, arguments.Or(NewSet([])), rootSet.Or(NewSet([])))
  }
}

=== FILE: wrappers.dfy ===
/** Optional values and fallible results, standing in for JavaScript's
    `undefined`/`null` and for the exceptions the adapter lets propagate. */
module Wrappers {

  /** `None` plays the role of an absent (`undefined` or `null`) value. */
  datatype Option<+T> = None | Some(value: T) {

    /** JavaScript's `x || fallback` where `x`, when present, is an object
        and so truthy: the value itself, else the fallback. */
    function Or(fallback: T): (r: T) {
      if Some? then value else fallback
    }
  }

  /** Either a computed value or the error the source would have thrown. */
  datatype Result<+T, +E> = Success(value: T) | Failure(error: E)
}
